=== FILE: README.md ===
# Vylop core logic in Dafny

Vylop is a collaborative code editor. Users meet in a room, edit one shared
document over a STOMP/WebSocket connection, run the code in a Docker
sandbox, and save the room's files. This project models the deterministic
core of that system as pure functions over immutable data, and proves
properties about them:

- **Editor sync client** (`CodeEditor.jsx`, module `EditorClient`). The
  room view is a state machine `State x Event -> State x seq<OutMsg>`. It
  covers:
  - the connection guard (`isConnected`) and the echo flag (`isLocalChange`);
  - publishing only while connected;
  - the code subscription, which compares against a stale `language` closure;
  - roster notices, and the order of cleanup.
- **Room roster and relays** (`EditorController.java`, module
  `RoomRoster`). The room id maps to a set of usernames. The model covers
  join, leave and disconnect cleanup, and the pass-through relays. A
  reference definition gives membership as the last join or leave.
- **Execution rate limiter** (`CodeExecutionController.java`, module
  `RateLimiter`). Each address has a 3000 ms cooldown, and `runCode`
  applies payload defaults.
- **Sandbox command builder** (`CodeExecutionService.java`, module
  `Sandbox`). The model covers:
  - the case-insensitive language switch and the `docker run` argument list;
  - stdin normalisation;
  - `readStream` line joining and the stdout/stderr combination.

  Everything else in `executeCode` is an input: the directory, the process
  and its outcome.
- **Workspace persistence** (`WorkspaceService.java`, module `Workspace`).
  The model covers:
  - suffix to language;
  - save with upsert semantics, as a loop proved independent of entry order;
  - load, and delete by the host only.
- **Accounts** (`AuthService.java` and the OAuth2 success handler in
  `SecurityConfig.java`, module `Accounts`). The model covers:
  - registration, with the username checked before the email;
  - login, with the matcher as a parameter;
  - the Google username derivation.
- **Avatar colour** (`Client.jsx`, module `AvatarColor`). This is the
  `stringToColor` hash with JavaScript's 32-bit `<<` and truncating `%`.
- **Run requests end to end** (module `CodeRun`). An accepted request's
  call, with its defaults applied, goes into the execution service.
- **Round trips** (module `SyncRoundTrip`). One client's edit and presence
  messages travel through the server handlers back to every client of the
  room.

Shared helpers live in `Strings` (Java-style string operations on
`seq<char>`), `Wrappers` (`Option`, `Result`) and `Messages` (the message
records). Clocks, random UUIDs, the password encoder and matcher, the
Docker process and the temporary directory are parameters.

A few behaviours of the program are worth stating plainly:
- the editor holds a single shared document per room;
- a failed connection clears the guard and shows a notice, and nothing
  reconnects;
- roster notices are keyed by name only (`join-<name>`, `leave-<name>`);
- the local user also sees its own LEAVE notice;
- avatar colours come from a hash of the name.

## Model


| member | source | states |
|---|---|---|
| EditorClient.EditorChangeRule | frontend/src/components/CodeEditor.jsx:87-98 | an edit while not connected changes nothing and sends nothing; while connected it sets the echo flag and the code, and sends exactly one CODE message with sender, value and current language to `/app/code/<room>` |
| EditorClient.CodeArrivedRule | frontend/src/components/CodeEditor.jsx:47-54 | an inbound code message always clears the echo flag and sends nothing. With the flag set it leaves code and language alone. With the flag clear it installs the content, and takes the message's language exactly when that language is non-empty and differs from the language captured by the subscription, and otherwise keeps the current language (also when the message has none) |
| EditorClient.MissingUsernameGoesHome | frontend/src/components/CodeEditor.jsx:29-33 | without a username the effect shows "Username is required", navigates home and opens no connection |
| EditorClient.EffectRunConnects | frontend/src/components/CodeEditor.jsx:35-43 | with a username and the guard clear, one connection is opened, the guard is set, and the subscription captures the current language |
| EditorClient.GuardBlocksSecondConnection | frontend/src/components/CodeEditor.jsx:35-37 | while the guard is set, another effect run opens no connection and emits nothing |
| EditorClient.FailureClearsGuard | frontend/src/components/CodeEditor.jsx:73-76 | every connect failure, including a repeated error callback after the link is down, clears the guard, drops the link and only shows the "Retrying" notice; no new connection is opened |
| EditorClient.ConnectSucceededOrder | frontend/src/components/CodeEditor.jsx:43-71 | a successful connect subscribes to the code topic, then the users topic, then sends exactly one JOIN |
| EditorClient.CleanupOrder | frontend/src/components/CodeEditor.jsx:78-84 | cleanup sends LEAVE before disconnecting, and only when connected |
| EditorClient.UsersArrivedRule | frontend/src/components/CodeEditor.jsx:57-68 | a users message replaces the roster exactly. A JOIN notice is raised only for another user, a LEAVE notice for anyone, keyed `join-<name>` / `leave-<name>` |
| EditorClient.StepPreservesValid | frontend/src/components/CodeEditor.jsx:26-85 | every event keeps "guard set exactly while a connection is pending or open", and a connection is opened only from the disconnected state |
| EditorClient.RunPreservesValid | frontend/src/components/CodeEditor.jsx:26-85 | the guard invariant holds after any sequence of events |
| EditorClient.MountIsValid | frontend/src/components/CodeEditor.jsx:16-26 | the first render is disconnected and satisfies the guard invariant |
| EditorClient.ConnectSendsOneJoin | frontend/src/components/CodeEditor.jsx:43-72 | completing a pending connection sends exactly one JOIN to the room and no LEAVE |
| EditorClient.CleanupSendsOneLeave | frontend/src/components/CodeEditor.jsx:78-84 | the armed cleanup of an open connection sends exactly one LEAVE to the room and no JOIN |
| EditorClient.StepLeaveBalance | frontend/src/components/CodeEditor.jsx:71-80 | per event, LEAVE sends never exceed JOIN sends plus the open connection |
| EditorClient.LeaveNeverOutrunsJoin | frontend/src/components/CodeEditor.jsx:71-80 | over any run, the client has sent at most as many LEAVEs as JOINs |
| EditorClient.NoSendWithoutConnect | frontend/src/components/CodeEditor.jsx:43-88 | without a successful connect, no run ever sends anything |
| EditorClient.TwoEditsInOrder | frontend/src/components/CodeEditor.jsx:47-98 | two edits whose echoes return in order: the first echo is swallowed, the second re-installs the latest edit, so the code stays at the second edit and the flag ends clear |
| EditorClient.ThreeEditsRevert | frontend/src/components/CodeEditor.jsx:47-98 | the echo flag is a boolean, not a counter: after three edits and the echoes of the first two, the code falls back to the second edit although the user last typed the third |
| EditorClient.StaleLanguageScenario | frontend/src/components/CodeEditor.jsx:47-54 | after the user switches language, an inbound message carrying the originally captured language does not switch it back |
| EditorClient.RemountBeforeConnectLosesLeave | frontend/src/components/CodeEditor.jsx:35-84 | a cleanup and re-run before the connection completes leaves a connected client whose JOIN was sent but which has no armed cleanup, so no LEAVE follows |
| RoomRoster.RelayForwardsUnchanged | backend/src/main/java/com/vylop/backend/controller/EditorController.java:37-55 | each relay broadcasts its payload unchanged, once, on `/topic/<kind>/<room>`, and leaves the roster alone |
| RoomRoster.Join | backend/src/main/java/com/vylop/backend/controller/EditorController.java:57-73 | join adds the user to the room's set (creating it), leaves other rooms unchanged, records username and room in the session, and broadcasts one JOIN with the roster after insertion |
| RoomRoster.HandleUserLeave | backend/src/main/java/com/vylop/backend/controller/EditorController.java:95-106 | a present user is removed and one LEAVE with the remaining roster is broadcast; otherwise nothing changes and nothing is sent; keys are kept |
| RoomRoster.Disconnect | backend/src/main/java/com/vylop/backend/controller/EditorController.java:82-92 | a session without username or room id changes nothing; otherwise it runs the leave cleanup for the room and user the session recorded |
| RoomRoster.JoinIdempotent | backend/src/main/java/com/vylop/backend/controller/EditorController.java:63 | a repeated join leaves the roster as the first join left it |
| RoomRoster.LeaveUndoesJoin | backend/src/main/java/com/vylop/backend/controller/EditorController.java:63-97 | join then leave of a new user in an existing room restores the roster |
| RoomRoster.LeaveKeepsEmptyRoom | backend/src/main/java/com/vylop/backend/controller/EditorController.java:63-97 | when the last user leaves, the room stays mapped to the empty set |
| RoomRoster.LeaveThenDisconnectBroadcastsOnce | backend/src/main/java/com/vylop/backend/controller/EditorController.java:75-106 | an explicit leave followed by the socket's disconnect yields a single LEAVE |
| RoomRoster.DisconnectForgetsEarlierRoom | backend/src/main/java/com/vylop/backend/controller/EditorController.java:60-90 | a session that joined two rooms is removed only from the latest on disconnect |
| RoomRoster.MembershipFollowsLastEvent | backend/src/main/java/com/vylop/backend/controller/EditorController.java:37-106 | after any sequence of joins, leaves and relays, a user is in a room exactly when their last join or leave there was a join |
| RateLimiter.Admit | backend/src/main/java/com/vylop/backend/controller/CodeExecutionController.java:35-45 | a request is accepted exactly when the address is new or 3000 ms have passed; acceptance records the time, refusal leaves the table, other addresses are never changed, and the wait is the remaining time in whole seconds |
| RateLimiter.WaitWithinCooldown | backend/src/main/java/com/vylop/backend/controller/CodeExecutionController.java:37-38 | within the cooldown the wait is 0..3 seconds, and 3 exactly for a repeat in the same millisecond |
| RateLimiter.FirstRequestAccepted | backend/src/main/java/com/vylop/backend/controller/CodeExecutionController.java:35-45 | the first request from an address is accepted and its time recorded |
| RateLimiter.RefusalsDoNotExtend | backend/src/main/java/com/vylop/backend/controller/CodeExecutionController.java:37-45 | refused requests never move the recorded time, so a request 3000 ms after the accepted one passes |
| RateLimiter.ToCall | backend/src/main/java/com/vylop/backend/controller/CodeExecutionController.java:48-54 | the main file defaults to "Main.java"; the other fields pass through |
| RateLimiter.RunCode | backend/src/main/java/com/vylop/backend/controller/CodeExecutionController.java:29-59 | status 429 exactly when the limiter refuses, with the table unchanged and no execution; otherwise 200 with the call made and the time recorded |
| RateLimiter.RefusalNamesWait | backend/src/main/java/com/vylop/backend/controller/CodeExecutionController.java:37-41 | a refusal's body is "Rate limit exceeded. Please wait " and " seconds before running code again." around digits that read back as the wait |
| Sandbox.SelectToolchain | backend/src/main/java/com/vylop/backend/service/CodeExecutionService.java:28-62 | a toolchain is chosen exactly when the lower-cased name is one of the eight keys; otherwise the error names the language in its original casing |
| Sandbox.DispatchIgnoresCase | backend/src/main/java/com/vylop/backend/service/CodeExecutionService.java:28 | spellings with the same lower-case form select the same toolchain |
| Sandbox.JavaToolchain | backend/src/main/java/com/vylop/backend/service/CodeExecutionService.java:29-33 | java compiles every file and runs the main file's name with every ".java" removed |
| Sandbox.JavaMainClass | backend/src/main/java/com/vylop/backend/service/CodeExecutionService.java:31-32 | `<name>.java` with no '.' in the name runs class `<name>` |
| Sandbox.CppIgnoresMainFile | backend/src/main/java/com/vylop/backend/service/CodeExecutionService.java:38-42 | "cpp" and "c++" give the same image and a command that ignores the main file |
| Sandbox.PythonRunsMainFile | backend/src/main/java/com/vylop/backend/service/CodeExecutionService.java:34-36 | any spelling of python runs the main file by name |
| Sandbox.JavaScriptRunsMainFile | backend/src/main/java/com/vylop/backend/service/CodeExecutionService.java:43-45 | any spelling of javascript runs the main file with node |
| Sandbox.TypeScriptRunsMainFile | backend/src/main/java/com/vylop/backend/service/CodeExecutionService.java:47-49 | any spelling of typescript runs the main file with deno |
| Sandbox.GoRunsMainFile | backend/src/main/java/com/vylop/backend/service/CodeExecutionService.java:51-54 | any spelling of go runs the main file with the cache and cgo settings |
| Sandbox.RustRunsMainFile | backend/src/main/java/com/vylop/backend/service/CodeExecutionService.java:56-58 | any spelling of rust compiles the main file and runs the binary |
| Sandbox.DockerArgv | backend/src/main/java/com/vylop/backend/service/CodeExecutionService.java:65-82 | 16 arguments in order: `docker run --rm -i`, then `--network none --memory 256m`, the volume and the working directory, and finally image, "sh", "-c", command |
| Sandbox.StdinText | backend/src/main/java/com/vylop/backend/service/CodeExecutionService.java:116-121 | missing or empty input writes nothing; other input is written with one "\n" added exactly when missing |
| Sandbox.ReadStreamUnixText | backend/src/main/java/com/vylop/backend/service/CodeExecutionService.java:137-140 | for text without "\r", reading the stream returns it without one trailing newline |
| Sandbox.CombineOutput | backend/src/main/java/com/vylop/backend/service/CodeExecutionService.java:134 | the result is stdout alone when stderr is empty, else stdout, the banner and stderr |
| Sandbox.BannerAt | backend/src/main/java/com/vylop/backend/service/CodeExecutionService.java:134 | finds the first "Error Output" banner in a combined text, or reports that there is none |
| Sandbox.CombineThenSplit | backend/src/main/java/com/vylop/backend/service/CodeExecutionService.java:134 | when stdout is a single line, splitting the combined text at its first banner gives back stdout and stderr exactly (stderr "" when there was none) |
| Sandbox.MultiLineOutputSplitsEarly | backend/src/main/java/com/vylop/backend/service/CodeExecutionService.java:134 | a stdout whose second line is the banner's text makes that split stop after the first line, so the combination cannot be undone in general |
| Sandbox.ExecuteCode | backend/src/main/java/com/vylop/backend/service/CodeExecutionService.java:17-140 | setup failures and unsupported languages launch nothing and return their error text. Otherwise it launches `docker run --rm -i --network none --memory 256m -v <dir>:/app -w /app <image> sh -c <command>` for the selected toolchain, with the normalised stdin and the given files. It returns the exception text, the timeout text, or the read stdout and stderr combined |
| Sandbox.DefaultJavaMain | backend/src/main/java/com/vylop/backend/service/CodeExecutionService.java:29-33 | the default main file "Main.java" compiles every file and runs class `Main` |
| CodeRun.AcceptedRequestLaunches | backend/src/main/java/com/vylop/backend/controller/CodeExecutionController.java:45-58 | an accepted request in a supported language launches the full docker argv (no network, 256m memory) for its main file's toolchain ("Main.java" by default), with its input normalised and its files. A finished run answers with the combined streams |
| CodeRun.DefaultJavaRequestRunsMain | backend/src/main/java/com/vylop/backend/controller/CodeExecutionController.java:48-57 | a java request without a main file runs `javac *.java && java Main` in the Temurin image |
| CodeRun.UnsupportedLanguageLaunchesNothing | backend/src/main/java/com/vylop/backend/controller/CodeExecutionController.java:48-57 | an accepted request in an unsupported language launches nothing and answers with the unsupported-language message |
| CodeRun.RefusedRequestRunsNothing | backend/src/main/java/com/vylop/backend/controller/CodeExecutionController.java:35-42 | a refused request answers 429, reaches no execution and leaves the table alone |
| Workspace.DetermineLanguage | backend/src/main/java/com/vylop/backend/service/WorkspaceService.java:103-110 | each language is returned exactly for names with its suffix, "plaintext" exactly for names with none |
| Workspace.LanguageOfSuffix | backend/src/main/java/com/vylop/backend/service/WorkspaceService.java:103-110 | appending a known suffix names its language; ".ts" is plain text |
| Workspace.Upsert | backend/src/main/java/com/vylop/backend/service/WorkspaceService.java:45-58 | one entry: content replaced and language kept for an existing file, a new file gets its suffix's language, other files untouched |
| Workspace.SaveEntries | backend/src/main/java/com/vylop/backend/service/WorkspaceService.java:44-59 | the loop over the request's entries yields the all-at-once saved table |
| Workspace.SaveAnyOrder | backend/src/main/java/com/vylop/backend/service/WorkspaceService.java:44-59 | the order the entries are visited in does not matter |
| Workspace.SaveInOrderIsSaved | backend/src/main/java/com/vylop/backend/service/WorkspaceService.java:44-59 | saving a prefix of the entries one by one equals saving them all at once |
| Workspace.SaveWorkspace | backend/src/main/java/com/vylop/backend/service/WorkspaceService.java:33-61 | an unknown user gets "Error: User not found!" and nothing changes. Otherwise the room is created (named, hosted by the user, not public) only if absent, and the files are saved |
| Workspace.LoadWorkspace | backend/src/main/java/com/vylop/backend/service/WorkspaceService.java:63-66 | load maps exactly the room's file names to their contents |
| Workspace.SaveThenLoad | backend/src/main/java/com/vylop/backend/service/WorkspaceService.java:44-66 | after a save, load gives every saved name with its saved content and the room's other files unchanged |
| Workspace.ResaveKeepsLanguage | backend/src/main/java/com/vylop/backend/service/WorkspaceService.java:51-54 | re-saving a file keeps the language it was first stored with |
| Workspace.SaveKeepsRoom | backend/src/main/java/com/vylop/backend/service/WorkspaceService.java:38-42 | saving into an existing room never changes it, whoever saves |
| Workspace.DeleteWorkspace | backend/src/main/java/com/vylop/backend/service/WorkspaceService.java:82-101 | a missing room or a non-host gets its error and nothing changes; the host's delete removes every file of the room and the room, and nothing else |
| Workspace.DeleteThenLoadEmpty | backend/src/main/java/com/vylop/backend/service/WorkspaceService.java:63-98 | after the host deletes a room, loading it is empty |
| Workspace.DeleteUndoesFirstSave | backend/src/main/java/com/vylop/backend/service/WorkspaceService.java:33-101 | a first save into a new room, deleted by the same user, restores every table |
| Accounts.Find | backend/src/main/java/com/vylop/backend/service/AuthService.java:23-29 | the lookup finds a row exactly when some row holds the value, and the row it returns holds it |
| Accounts.FindSoleRow | backend/src/main/java/com/vylop/backend/repository/UserRepository.java:15-17 | when exactly one row holds the value, the lookup returns that row, as the single-result query does |
| Accounts.Register | backend/src/main/java/com/vylop/backend/service/AuthService.java:23-39 | a taken username is refused first, then a taken email, each without saving. Otherwise one row with the encoded password is saved, and both username and email find it |
| Accounts.RegisterKeepsUnique | backend/src/main/java/com/vylop/backend/service/AuthService.java:24-37 | registration keeps usernames and emails unique |
| Accounts.RegisterTwiceRefused | backend/src/main/java/com/vylop/backend/service/AuthService.java:24-29 | repeating a request never registers a second row |
| Accounts.Login | backend/src/main/java/com/vylop/backend/service/AuthService.java:41-53 | login succeeds exactly when the user exists and the matcher accepts the password; every failure gets the same reply |
| Accounts.LoginAfterRegister | backend/src/main/java/com/vylop/backend/service/AuthService.java:35-47 | with a matcher that accepts a password against its encoding, freshly registered credentials log in |
| Accounts.RepliesAreClassified | backend/src/main/java/com/vylop/backend/service/AuthService.java:25-52 | every reply starts with "Success" or "Error", and contains "successful" exactly when it starts with "Success" (the client's test in frontend/src/components/Auth.jsx line 47) |
| Accounts.EmailLocalPart | backend/src/main/java/com/vylop/backend/config/SecurityConfig.java:57 | `split("@")[0]` is the text before the first '@'. It fails exactly for a non-empty email made only of '@' |
| Accounts.GoogleLogin | backend/src/main/java/com/vylop/backend/config/SecurityConfig.java:53-77 | a known email keeps its username and saves nothing. A new email saves one row with a username, the email and an encoded random password; the username is the local part, or the local part plus four UUID characters when that is taken. The redirect carries the username |
| Accounts.GoogleLoginStable | backend/src/main/java/com/vylop/backend/config/SecurityConfig.java:60-74 | signing in again with the same email keeps the first username and saves nothing |
| Accounts.SuffixedNameMayCollide | backend/src/main/java/com/vylop/backend/config/SecurityConfig.java:63-64 | the suffixed name is not re-checked, so usernames can stop being unique |
| Accounts.LocalPartBecomesUsername | backend/src/main/java/com/vylop/backend/config/SecurityConfig.java:57-76 | "ann@example.com" on an empty store signs in as "ann" |
| AvatarColor.ToInt32 | frontend/src/components/Client.jsx:8 | the result is a signed 32-bit value congruent to the input modulo 2^32, and 32-bit inputs are unchanged |
| AvatarColor.JsRemainder360 | frontend/src/components/Client.jsx:10 | the remainder lies strictly between -360 and 360, has the dividend's sign and is congruent to it modulo 360 |
| AvatarColor.ColorOf | frontend/src/components/Client.jsx:4-11 | saturation 70 and lightness 50 always; the hue has the hash's sign and is congruent to it modulo 360 |
| AvatarColor.StringToColor | frontend/src/components/Client.jsx:5-11 | the loop builds the same CSS text as the fold |
| AvatarColor.StepWithoutWrap | frontend/src/components/Client.jsx:8 | below 2^26 in size a step is `31 * hash + code` |
| AvatarColor.StepWrapsAt2To26 | frontend/src/components/Client.jsx:8 | at 2^26 the shift wraps to -2^31, so the step is no longer `31 * hash` |
| AvatarColor.HashBound | frontend/src/components/Client.jsx:6-9 | each code unit moves the hash by at most 2^31 + 2^16 |
| AvatarColor.EmptyNameColor | frontend/src/components/Client.jsx:6-10 | the empty name gives "hsl(0, 70%, 50%)" |
| AvatarColor.SingleUnitColor | frontend/src/components/Client.jsx:7-10 | a one-unit name gets hue `code % 360`; "a" gets 97 |
| AvatarColor.TwoUnitHash | frontend/src/components/Client.jsx:7-9 | two-unit names hash to `31 * c0 + c1` |
| SyncRoundTrip.EditReachesRoom | frontend/src/components/CodeEditor.jsx:47-98 | an edit is sent once and relayed unchanged on the code topic. The other client installs it; the writer's echo only clears its flag |
| SyncRoundTrip.LanguageFollowsCapturedValue | frontend/src/components/CodeEditor.jsx:51 | a message carrying the reader's captured language leaves the reader's current language |
| SyncRoundTrip.JoinRoundTrip | backend/src/main/java/com/vylop/backend/controller/EditorController.java:63-72 | the joining client receives its own JOIN with the full roster and shows no notice for itself |
| SyncRoundTrip.OtherJoinNotified | frontend/src/components/CodeEditor.jsx:59-64 | another user's JOIN shows one "joined" notice and that user in the roster |
| SyncRoundTrip.LeaveRoundTrip | backend/src/main/java/com/vylop/backend/controller/EditorController.java:95-105 | a leave reaches the room as one "left" notice, and the leaver is gone from the shown roster |
| Strings.RemoveAll | backend/src/main/java/com/vylop/backend/service/CodeExecutionService.java:31 | `replace(".java", "")` never lengthens the text and leaves text without the pattern unchanged |
| Strings.RemoveTrailing | backend/src/main/java/com/vylop/backend/service/CodeExecutionService.java:31 | a name free of the pattern's first character loses exactly the trailing pattern |
| Strings.ToLower | backend/src/main/java/com/vylop/backend/service/CodeExecutionService.java:28 | lower-casing keeps the length and maps each letter A-Z to a-z |
| Strings.NatToStringRoundTrip | backend/src/main/java/com/vylop/backend/controller/CodeExecutionController.java:40 | the decimal text of the wait parses back to the number |

## Left out

- UI rendering, routing and toasts beyond the notice text (Monaco, JSX layout, sidebar, Home/App/Auth pages) are not modelled; they are presentation.
- The STOMP/SockJS transport, `SimpMessagingTemplate`, `WebSocketConfig`, the CORS and security filter chain, and the controllers' mapping from "Error" prefixes to HTTP statuses are not modelled. Outbound messages are emitted as a sequence, and the broker delivers them unchanged.
- Docker process execution, temporary directory writes and deletion, the 20-second `waitFor` and stream I/O are inputs (`Environment`), not modelled.
- JPA entities and repositories are in-memory tables. The clock timestamps (`@PrePersist`, `createdAt`, `LocalTime.now()`) are dropped.
- `getUserWorkspaces` lists the user's hosted rooms, newest first, as id, name and creation time. It is not modelled because the modelled tables carry no creation clock.
- BCrypt hashing and matching and UUID randomness are parameters.
- Concurrency (`ConcurrentHashMap`, `synchronizedSet`, asynchronous socket delivery) is not modelled; events are processed one at a time.
- The order of a `HashSet` when copied into the broadcast list is not modelled: the server broadcast carries the set, and `SyncRoundTrip.Lists` relates it to the list the client receives.
- Java `null` inputs are not modelled, because the model's types have no null. These are a null language or email, null request fields, and a null `files` map in `saveWorkspace`. The runPayload's missing fields are `Option`s.
- `Strings.ToLower` lower-cases ASCII letters only. Java's `toLowerCase()` follows the default locale and maps non-ASCII letters; neither is modelled. In a Turkish or Azerbaijani locale an upper-case "I" lowers to a dotless "ı". So there the source answers "Error: Language 'JAVASCRIPT' is not supported yet." (and likewise for "TYPESCRIPT"), while `Sandbox.SelectToolchain` and `Sandbox.DispatchIgnoresCase` select node and deno. In every other locale the eight language keys dispatch as modelled.
- Java `long` overflow in the cooldown arithmetic is not modelled; times are unbounded integers.
- JavaScript numbers above 2^53 in `stringToColor` are not modelled. The hash stays far below that for any name shorter than about a million characters (`AvatarColor.HashBound`).
- `BufferedReader.lines()` is modelled on characters. Byte decoding of the process streams is not.
- The `code` argument of `executeCode` is accepted and ignored, as in the source; only `files` reach the container.
- `Sandbox.ReadStreamUnixText`: proved only for text without "\r". "\r" and "\r\n" terminators are modelled in `Sandbox.Lines`, but no lemma states their round trip.
- `Sandbox.StdinText`: states prefix, suffix and length, not the full text. The text is fully determined by these.
- Chat, typing and cursor messages are relayed by the server, and no client handler for them exists in the editor view.
- The client's Run button (the `runCode` fetch, output panel and input box in `CodeEditor.jsx`) is not modelled; the server side of a run is (`RateLimiter`, `Sandbox`).
- Accounts.Find: answers with the first matching row. The repository's single-result query throws when two rows match, and then login, registration, Google sign-in and saving a workspace fail with an exception. Duplicate usernames are reachable (`Accounts.SuffixedNameMayCollide`), but this exception path is not modelled. `Accounts.FindSoleRow` shows that the two agree whenever at most one row matches, and `Accounts.RegisterKeepsUnique` shows that registration alone never creates duplicates.
- Requests without a language (a null `language`, which fails inside the service with a null-pointer message) are not modelled; the `CodeRun` lemmas assume a language is given.

=== FILE: accounts.dfy ===
/** The account rules: `AuthService.registerUser` and `loginUser`, and the
    username derivation of the Google sign-in success handler in
    `SecurityConfig`. The user repository is a sequence of rows searched
    front to back; the password encoder, the password matcher and the random
    UUIDs are parameters. */
module Accounts {
  import opened Wrappers
  import Strings

  datatype User = User(username: string, email: string, password: string)

  type UserStore = seq<User>

  /** The two columns the repository is searched by. */
  datatype Column = UsernameColumn | EmailColumn

  function Key(u: User, c: Column): string {
    match c
    case UsernameColumn => u.username
    case EmailColumn => u.email
  }

  predicate Taken(store: UserStore, c: Column, value: string) {
    exists i | 0 <= i < |store| :: Key(store[i], c) == value
  }

  /** `findByUsername` / `findByEmail`: the first row holding the value. */
  function Find(store: UserStore, c: Column, value: string): (r: Option<User>)
    ensures r.Some? <==> Taken(store, c, value)
    ensures r.Some? ==> r.value in store && Key(r.value, c) == value
    decreases |store|
  {
    if store == [] then None
    else if Key(store[0], c) == value then Some(store[0])
    else
      var r := Find(store[1..], c, value);
      assert Taken(store[1..], c, value) ==> Taken(store, c, value) by {
        if Taken(store[1..], c, value) {
          var i :| 0 <= i < |store[1..]| && Key(store[1..][i], c) == value;
          assert Key(store[i + 1], c) == value;
        }
      }
      r
  }

  /** Saving a row at the end does not change what an earlier row answers,
      and answers for a value nobody held before. */
  lemma {:induction false} FindAfterSave(store: UserStore, u: User, c: Column, value: string)
    ensures Taken(store, c, value) ==> Find(store + [u], c, value) == Find(store, c, value)
    ensures !Taken(store, c, value) && Key(u, c) == value ==> Find(store + [u], c, value) == Some(u)
    ensures !Taken(store, c, value) && Key(u, c) != value ==> Find(store + [u], c, value).None?
    decreases |store|
  {
    if store != [] {
      assert (store + [u])[0] == store[0];
      assert (store + [u])[1..] == store[1..] + [u];
      FindAfterSave(store[1..], u, c, value);
    } else {
      assert (store + [u])[1..] == [];
    }
  }

  /** When exactly one row holds the value, the lookup returns that row, which
      is the only case where a single-result query answers at all. */
  lemma {:induction false} FindSoleRow(store: UserStore, c: Column, value: string, i: int)
    requires 0 <= i < |store| && Key(store[i], c) == value
    requires forall j :: 0 <= j < |store| && j != i ==> Key(store[j], c) != value
    ensures Find(store, c, value) == Some(store[i])
    decreases |store|
  {
    if i > 0 {
      assert Key(store[0], c) != value;
      forall j | 0 <= j < |store[1..]| && j != i - 1
        ensures Key(store[1..][j], c) != value
      {
        assert store[1..][j] == store[j + 1];
      }
      FindSoleRow(store[1..], c, value, i - 1);
    }
  }

  /** No two rows share a username, and no two share an email. */
  predicate Unique(store: UserStore) {
    forall i, j | 0 <= i < j < |store| ::
      store[i].username != store[j].username && store[i].email != store[j].email
  }

  // -----------------------------------------------------------------------
  // Replies

  const UsernameTakenReply := "Error: Username is already taken!"
  const EmailTakenReply := "Error: Email is already registered!"
  const RegisteredReply := "Success: User registered successfully!"
  const LoggedInReply := "Success: Logged in successfully!"
  const InvalidLoginReply := "Error: Invalid username or password!"

  /** Every reply the service produces. */
  predicate IsReply(s: string) {
    s in {UsernameTakenReply, EmailTakenReply, RegisteredReply, LoggedInReply, InvalidLoginReply}
  }

  // -----------------------------------------------------------------------
  // Registration and login

  datatype RegisterRequest = RegisterRequest(username: string, email: string, password: string)

  datatype Registration = Registration(store: UserStore, reply: string)

  /** `registerUser`: the username is checked before the email; a
      registration that passes both stores the encoded password. */
  function Register(store: UserStore, req: RegisterRequest, encode: string -> string): (r: Registration)
    ensures Taken(store, UsernameColumn, req.username) ==> r == Registration(store, UsernameTakenReply)
    ensures !Taken(store, UsernameColumn, req.username) && Taken(store, EmailColumn, req.email) ==>
      r == Registration(store, EmailTakenReply)
    ensures r.reply == RegisteredReply <==>
      !Taken(store, UsernameColumn, req.username) && !Taken(store, EmailColumn, req.email)
    ensures r.reply == RegisteredReply ==>
      && Find(r.store, UsernameColumn, req.username) == Some(User(req.username, req.email, encode(req.password)))
      && Find(r.store, EmailColumn, req.email) == Some(User(req.username, req.email, encode(req.password)))
      && |r.store| == |store| + 1 && r.store[..|store|] == store
    ensures IsReply(r.reply)
  {
    if Find(store, UsernameColumn, req.username).Some? then Registration(store, UsernameTakenReply)
    else if Find(store, EmailColumn, req.email).Some? then Registration(store, EmailTakenReply)
    else
      var u := User(req.username, req.email, encode(req.password));
      FindAfterSave(store, u, UsernameColumn, req.username);
      FindAfterSave(store, u, EmailColumn, req.email);
      assert (store + [u])[..|store|] == store;
      Registration(store + [u], RegisteredReply)
  }

  /** Registration keeps usernames and emails unique. */
  lemma RegisterKeepsUnique(store: UserStore, req: RegisterRequest, encode: string -> string)
    requires Unique(store)
    ensures Unique(Register(store, req, encode).store)
  {
    var r := Register(store, req, encode);
    if r.reply == RegisteredReply {
      var u := User(req.username, req.email, encode(req.password));
      assert r.store == store + [u];
      forall i, j | 0 <= i < j < |r.store|
        ensures r.store[i].username != r.store[j].username && r.store[i].email != r.store[j].email
      {
        if j == |store| {
          assert r.store[i] == store[i];
          assert !(Key(store[i], UsernameColumn) == req.username);
          assert !(Key(store[i], EmailColumn) == req.email);
        }
      }
    }
  }

  /** Repeating a request never registers twice: it is refused and changes
      nothing, and after a success it is refused for the username. */
  lemma RegisterTwiceRefused(store: UserStore, req: RegisterRequest, encode: string -> string)
    ensures var r1 := Register(store, req, encode);
      var r2 := Register(r1.store, req, encode);
      && r2.store == r1.store && r2.reply != RegisteredReply
      && (r1.reply == RegisteredReply ==> r2.reply == UsernameTakenReply)
  {
  }

  datatype LoginRequest = LoginRequest(username: string, password: string)

  /** `loginUser`: success exactly when a user of that name exists and the
      matcher accepts the raw password against the stored one; an unknown
      user and a wrong password get the same reply. */
  function Login(store: UserStore, req: LoginRequest, matches: (string, string) -> bool): (reply: string)
    ensures reply == LoggedInReply <==>
      Taken(store, UsernameColumn, req.username) &&
      matches(req.password, Find(store, UsernameColumn, req.username).value.password)
    ensures reply != LoggedInReply ==> reply == InvalidLoginReply
  {
    match Find(store, UsernameColumn, req.username)
    case Some(u) => if matches(req.password, u.password) then LoggedInReply else InvalidLoginReply
    case None => InvalidLoginReply
  }

  /** With a matcher that accepts a password against its own encoding, the
      credentials just registered log in. */
  lemma LoginAfterRegister(store: UserStore, req: RegisterRequest, encode: string -> string,
                           matches: (string, string) -> bool)
    requires Register(store, req, encode).reply == RegisteredReply
    requires matches(req.password, encode(req.password))
    ensures Login(Register(store, req, encode).store, LoginRequest(req.username, req.password), matches) == LoggedInReply
  {
  }

  /** "successful" holds an 'f', so any text containing it does too. */
  lemma SuccessfulNeedsF(s: string)
    ensures Strings.Contains(s, "successful") ==> 'f' in s
  {
    if Strings.Contains(s, "successful") {
      var i :| 0 <= i <= |s| - 10 && Strings.OccursAt(s, "successful", i);
      assert s[i + 7] == s[i..i + 10][7];
    }
  }

  /** The client tells success from failure by the word "successful": every
      reply starts with "Success" or "Error", and holds "successful" exactly
      when it starts with "Success". */
  lemma RepliesAreClassified(s: string)
    requires IsReply(s)
    ensures Strings.StartsWith(s, "Success") || Strings.StartsWith(s, "Error")
    ensures Strings.Contains(s, "successful") <==> Strings.StartsWith(s, "Success")
  {
    if s == RegisteredReply {
      RegisteredIsSuccess();
    } else if s == LoggedInReply {
      LoggedInIsSuccess();
    } else if s == UsernameTakenReply {
      UsernameTakenIsError();
    } else if s == EmailTakenReply {
      EmailTakenIsError();
    } else {
      InvalidLoginIsError();
    }
  }

  lemma RegisteredIsSuccess()
    ensures Strings.StartsWith(RegisteredReply, "Success") && !Strings.StartsWith(RegisteredReply, "Error")
    ensures Strings.Contains(RegisteredReply, "successful")
  {
    var s := RegisteredReply;
    assert s[..7] == "Success";
    assert s[25..35] == "successful";
    SuccessReply(s, 25);
  }

  lemma LoggedInIsSuccess()
    ensures Strings.StartsWith(LoggedInReply, "Success") && !Strings.StartsWith(LoggedInReply, "Error")
    ensures Strings.Contains(LoggedInReply, "successful")
  {
    var s := LoggedInReply;
    assert s[..7] == "Success";
    assert s[19..29] == "successful";
    SuccessReply(s, 19);
  }

  lemma UsernameTakenIsError()
    ensures Strings.StartsWith(UsernameTakenReply, "Error") && !Strings.StartsWith(UsernameTakenReply, "Success")
    ensures !Strings.Contains(UsernameTakenReply, "successful")
  {
    var s := UsernameTakenReply;
    assert s[..5] == "Error";
    assert 'f' !in s;
    ErrorReply(s);
  }

  lemma EmailTakenIsError()
    ensures Strings.StartsWith(EmailTakenReply, "Error") && !Strings.StartsWith(EmailTakenReply, "Success")
    ensures !Strings.Contains(EmailTakenReply, "successful")
  {
    var s := EmailTakenReply;
    assert s[..5] == "Error";
    assert 'f' !in s;
    ErrorReply(s);
  }

  lemma InvalidLoginIsError()
    ensures Strings.StartsWith(InvalidLoginReply, "Error") && !Strings.StartsWith(InvalidLoginReply, "Success")
    ensures !Strings.Contains(InvalidLoginReply, "successful")
  {
    var s := InvalidLoginReply;
    assert s[..5] == "Error";
    assert 'f' !in s;
    ErrorReply(s);
  }

  lemma SuccessReply(s: string, at: nat)
    requires |s| >= 7 && s[..7] == "Success"
    requires at + 10 <= |s| && s[at..at + 10] == "successful"
    ensures Strings.StartsWith(s, "Success") && !Strings.StartsWith(s, "Error")
    ensures Strings.Contains(s, "successful")
  {
    assert s[0] == 'S';
    assert Strings.OccursAt(s, "successful", at);
  }

  lemma ErrorReply(s: string)
    requires |s| >= 5 && s[..5] == "Error" && 'f' !in s
    ensures Strings.StartsWith(s, "Error") && !Strings.StartsWith(s, "Success")
    ensures !Strings.Contains(s, "successful")
  {
    assert s[0] == 'E';
    SuccessfulNeedsF(s);
  }

  // -----------------------------------------------------------------------
  // Google sign-in

  /** `email.split("@")[0]`: the text before the first '@' (the whole email
      when there is none). Java drops trailing empty pieces, so a non-empty
      email made only of '@' leaves no piece and indexing it throws. */
  function EmailLocalPart(email: string): (r: Result<string, string>)
    ensures r.Err? <==> email != [] && forall k :: 0 <= k < |email| ==> email[k] == '@'
    ensures r.Ok? ==>
      && Strings.StartsWith(email, r.value)
      && (forall k :: 0 <= k < |r.value| ==> r.value[k] != '@')
      && (|r.value| < |email| ==> email[|r.value|] == '@')
  {
    var i := FirstAt(email);
    if i < |email| && AllAt(email) then Err("ArrayIndexOutOfBoundsException")
    else
      assert i < |email| ==> i > 0 || exists k :: 0 <= k < |email| && email[k] != '@';
      Ok(email[..i])
  }

  /** Index of the first '@', or |s| when there is none. */
  function FirstAt(s: string): (i: nat)
    ensures i <= |s|
    ensures forall k :: 0 <= k < i ==> s[k] != '@'
    ensures i < |s| ==> s[i] == '@'
  {
    if s == [] then 0 else if s[0] == '@' then 0 else 1 + FirstAt(s[1..])
  }

  predicate AllAt(s: string) {
    forall k :: 0 <= k < |s| ==> s[k] == '@'
  }

  /** A non-empty local part free of '@' is what the split returns. */
  lemma LocalPartOf(local: string, domain: string)
    requires |local| > 0 && '@' !in local
    ensures EmailLocalPart(local + "@" + domain) == Ok(local)
  {
    var e := local + "@" + domain;
    assert e[|local|] == '@';
    forall k | 0 <= k < |local|
      ensures e[k] != '@'
    {
      assert e[k] == local[k];
      assert local[k] in local;
    }
    assert FirstAt(e) == |local|;
    assert !AllAt(e) by { assert e[0] != '@'; }
    assert e[..|local|] == local;
  }

  const RedirectPrefix := "http://localhost:5173/auth?googleUsername="

  datatype GoogleOutcome = GoogleOutcome(store: UserStore, username: string, redirect: string)

  /** `onAuthenticationSuccess` for a signed-in email. `suffixUuid` and
      `passwordUuid` are the two random UUID strings (36 characters each). */
  function GoogleLogin(store: UserStore, email: string, suffixUuid: string, passwordUuid: string,
                       encode: string -> string): (r: Result<GoogleOutcome, string>)
    requires |suffixUuid| == 36 && |passwordUuid| == 36
    ensures r.Err? <==> EmailLocalPart(email).Err?
    ensures r.Ok? ==> r.value.redirect == RedirectPrefix + r.value.username
    ensures r.Ok? && Taken(store, EmailColumn, email) ==>
      r.value.store == store && r.value.username == Find(store, EmailColumn, email).value.username
    ensures r.Ok? && !Taken(store, EmailColumn, email) ==>
      var base := EmailLocalPart(email).value;
      && r.value.username == (if Taken(store, UsernameColumn, base) then base + suffixUuid[..4] else base)
      && r.value.store == store + [User(r.value.username, email, encode(passwordUuid))]
  {
    match EmailLocalPart(email)
    case Err(e) => Err(e)
    case Ok(base) =>
      match Find(store, EmailColumn, email)
      case Some(existing) =>
        Ok(GoogleOutcome(store, existing.username, RedirectPrefix + existing.username))
      case None =>
        var name := if Find(store, UsernameColumn, base).Some? then base + suffixUuid[..4] else base;
        Ok(GoogleOutcome(store + [User(name, email, encode(passwordUuid))], name, RedirectPrefix + name))
  }

  /** Signing in again with the same email keeps the username chosen the
      first time and saves nothing. */
  lemma GoogleLoginStable(store: UserStore, email: string, u1: string, p1: string, u2: string, p2: string,
                          encode: string -> string)
    requires |u1| == 36 && |p1| == 36 && |u2| == 36 && |p2| == 36
    requires GoogleLogin(store, email, u1, p1, encode).Ok?
    ensures var first := GoogleLogin(store, email, u1, p1, encode).value;
      var second := GoogleLogin(first.store, email, u2, p2, encode);
      second.Ok? && second.value.store == first.store && second.value.username == first.username
  {
    var first := GoogleLogin(store, email, u1, p1, encode).value;
    if !Taken(store, EmailColumn, email) {
      FindAfterSave(store, User(first.username, email, encode(p1)), EmailColumn, email);
    }
  }

  /** The suffixed name is not checked again: when both the local part and
      the local part plus the UUID prefix are taken, the new user shares a
      username with an existing one, and usernames stop being unique. */
  lemma SuffixedNameMayCollide(store: UserStore, email: string, suffixUuid: string, passwordUuid: string,
                               encode: string -> string)
    requires |suffixUuid| == 36 && |passwordUuid| == 36
    requires !Taken(store, EmailColumn, email)
    requires EmailLocalPart(email).Ok?
    requires Taken(store, UsernameColumn, EmailLocalPart(email).value)
    requires Taken(store, UsernameColumn, EmailLocalPart(email).value + suffixUuid[..4])
    ensures var r := GoogleLogin(store, email, suffixUuid, passwordUuid, encode).value;
      !Unique(r.store)
  {
    var r := GoogleLogin(store, email, suffixUuid, passwordUuid, encode).value;
    var name := EmailLocalPart(email).value + suffixUuid[..4];
    var i :| 0 <= i < |store| && Key(store[i], UsernameColumn) == name;
    assert r.store[i] == store[i] && r.store[|store|].username == name;
  }

  /** A new email whose local part is free becomes the username; for
      example "ann@example.com" on an empty store signs in as "ann". */
  lemma LocalPartBecomesUsername(suffixUuid: string, passwordUuid: string, encode: string -> string)
    requires |suffixUuid| == 36 && |passwordUuid| == 36
    ensures var r := GoogleLogin([], "ann@example.com", suffixUuid, passwordUuid, encode);
      r.Ok? && r.value.username == "ann" && r.value.redirect == RedirectPrefix + "ann"
  {
    assert "ann@example.com" == "ann" + "@" + "example.com";
    LocalPartOf("ann", "example.com");
  }
}

=== FILE: avatar_color.dfy ===
/** The avatar colour of `Client.jsx`: a hash folded over the username's
    UTF-16 code units with JavaScript's 32-bit `<<`, then a hue taken with
    JavaScript's truncating `%`. Saturation and lightness are fixed. */
module AvatarColor {
  import Strings

  /** One UTF-16 code unit, the value `String.prototype.charCodeAt` returns. */
  type CodeUnit = x: int | 0 <= x < 0x1_0000

  const TwoTo31: int := 0x8000_0000
  const TwoTo32: int := 0x1_0000_0000

  predicate IsInt32(x: int) {
    -TwoTo31 <= x < TwoTo31
  }

  /** ECMAScript ToInt32: the representative of `x` modulo 2^32 in the
      signed 32-bit range. */
  function ToInt32(x: int): (r: int)
    ensures IsInt32(r)
    ensures (r - x) % TwoTo32 == 0
    ensures IsInt32(x) ==> r == x
  {
    (x + TwoTo31) % TwoTo32 - TwoTo31
  }

  /** `h << 5`: both the operand and the result pass through ToInt32. */
  function ShiftLeft5(h: int): int {
    ToInt32(ToInt32(h) * 32)
  }

  /** One iteration of the loop body: `hash = code + ((hash << 5) - hash)`.
      The subtraction and addition are exact (they are far below 2^53 for
      any username a browser holds). */
  function Step(hash: int, code: CodeUnit): int {
    code + (ShiftLeft5(hash) - hash)
  }

  /** The hash after folding every code unit of `units`, starting from 0. */
  function Hash(units: seq<CodeUnit>): int {
    if units == [] then 0 else Step(Hash(units[..|units| - 1]), units[|units| - 1])
  }

  /** JavaScript's `a % 360`: the remainder takes the sign of the dividend
      (Dafny's own `%` never returns a negative number). */
  function JsRemainder360(a: int): (r: int)
    ensures -360 < r < 360
    ensures a >= 0 ==> 0 <= r
    ensures a <= 0 ==> r <= 0
    ensures (a - r) % 360 == 0
  {
    if a >= 0 then a % 360 else -((-a) % 360)
  }

  datatype Hsl = Hsl(hue: int, saturation: int, lightness: int) {
    /** The CSS text `hsl(<hue>, <saturation>%, <lightness>%)`. */
    function Css(): string {
      "hsl(" + Strings.IntToString(hue) + ", " + Strings.IntToString(saturation) + "%, "
        + Strings.IntToString(lightness) + "%)"
    }
  }

  /** The colour `stringToColor` chooses for a username. */
  function ColorOf(units: seq<CodeUnit>): (c: Hsl)
    ensures c.saturation == 70 && c.lightness == 50
    ensures -360 < c.hue < 360
    ensures Hash(units) >= 0 ==> c.hue >= 0
    ensures Hash(units) <= 0 ==> c.hue <= 0
    ensures (Hash(units) - c.hue) % 360 == 0
  {
    Hsl(JsRemainder360(Hash(units)), 70, 50)
  }

  /** The loop of `stringToColor`, returning the CSS text it builds. */
  method StringToColor(units: seq<CodeUnit>) returns (css: string)
    ensures css == ColorOf(units).Css()
  {
    var hash := 0;
    var i := 0;
    while i < |units|
      invariant 0 <= i <= |units|
      invariant hash == Hash(units[..i])
    {
      assert units[..i + 1][..i] == units[..i];
      hash := units[i] + (ShiftLeft5(hash) - hash);
      i := i + 1;
    }
    assert units[..i] == units;
    css := Hsl(JsRemainder360(hash), 70, 50).Css();
  }

  /** While |h| < 2^26 the shift does not wrap, so a step is `31 * h + code`,
      the familiar multiplicative string hash. */
  lemma StepWithoutWrap(h: int, code: CodeUnit)
    requires -0x400_0000 <= h < 0x400_0000
    ensures Step(h, code) == 31 * h + code
  {
    assert ToInt32(h) == h;
    assert IsInt32(h * 32);
  }

  /** The shift always lands in the 32-bit range, so one step moves the hash
      by less than 2^31 + 2^16 on top of negating it. */
  lemma StepBounds(h: int, code: CodeUnit)
    ensures -TwoTo31 - h <= Step(h, code) < TwoTo31 + 0x1_0000 - h
  {
  }

  /** At |h| = 2^26 the shift wraps: `2^26 << 5` is -2^31, not 2^31, so the
      step differs from `31 * h + code`. */
  lemma StepWrapsAt2To26()
    ensures ShiftLeft5(0x400_0000) == -TwoTo31
    ensures Step(0x400_0000, 0) == -TwoTo31 - 0x400_0000
    ensures Step(0x400_0000, 0) != 31 * 0x400_0000
  {
  }

  /** Each unit moves the hash by at most 2^31 + 2^16 in size, so the hash of
      a name of fewer than 2^21 units stays below 2^53 and JavaScript's
      double arithmetic outside the shift is exact. */
  lemma {:induction false} HashBound(units: seq<CodeUnit>)
    ensures -|units| * (TwoTo31 + 0x1_0000) <= Hash(units) <= |units| * (TwoTo31 + 0x1_0000)
  {
    if units != [] {
      var init := units[..|units| - 1];
      HashBound(init);
      StepBounds(Hash(init), units[|units| - 1]);
    }
  }

  /** The empty username gets hue 0: `hsl(0, 70%, 50%)`. */
  lemma EmptyNameColor()
    ensures ColorOf([]).Css() == "hsl(0, 70%, 50%)"
  {
    assert Strings.IntToString(0) == "0";
    assert Strings.IntToString(70) == "70";
    assert Strings.IntToString(50) == "50";
  }

  /** A one-unit name gets hue `code % 360`; "a" (97) gets hue 97. */
  lemma SingleUnitColor(code: CodeUnit)
    ensures ColorOf([code]).hue == code % 360
    ensures ColorOf([97]).hue == 97
  {
    assert [code][..0] == [];
    assert Hash([code]) == Step(0, code);
    StepWithoutWrap(0, code);
    var a: seq<CodeUnit> := [97];
    assert a[..0] == [];
    assert Hash(a) == Step(0, 97);
    StepWithoutWrap(0, 97);
  }

  /** Two-unit names fold as `31 * c0 + c1` (no wrap is possible yet). */
  lemma TwoUnitHash(c0: CodeUnit, c1: CodeUnit)
    ensures Hash([c0, c1]) == 31 * c0 + c1
  {
    assert [c0, c1][..1] == [c0];
    assert [c0][..0] == [];
    assert Hash([c0]) == Step(0, c0);
    assert Hash([c0, c1]) == Step(Hash([c0]), c1);
    StepWithoutWrap(0, c0);
    StepWithoutWrap(c0, c1);
  }
}

=== FILE: code_run.dfy ===
/** One `/api/run` request end to end: the controller's rate limit and payload
    defaults (`RateLimiter`) feeding the execution service (`Sandbox`). The
    service's environment (temporary directory, process outcome) is a
    parameter, as in `Sandbox.ExecuteCode`. */
module CodeRun {
  import opened Wrappers
  import Strings
  import RateLimiter
  import Sandbox

  /** What the execution service makes of the call an accepted request
      produces. */
  function Executed(c: RateLimiter.ExecutionCall, env: Sandbox.Environment): Sandbox.Execution
    requires c.language.Some?
  {
    Sandbox.ExecuteCode(c.language.value, c.code, c.input, c.mainFileName, c.files, env)
  }

  /** An accepted request in a supported language launches one container,
      without network and with 256 MB of memory: its command is the
      toolchain's for the request's main file (or "Main.java" when none is
      given), its standard input is the request's input normalised, its
      files are the request's, and a finished run answers with the combined
      streams. */
  lemma AcceptedRequestLaunches(table: RateLimiter.LastAccepted, ip: string, now: int,
                                p: RateLimiter.RunPayload, env: Sandbox.Environment)
    requires RateLimiter.Admit(table, ip, now).decision.Accepted?
    requires p.language.Some? && env.setupFailure.None?
    requires Strings.ToLower(p.language.value) in Sandbox.SupportedKeys
    ensures var resp := RateLimiter.RunCode(table, ip, now, p).0;
      && resp.status == 200 && resp.call.Some? && resp.call.value.language.Some?
      && var e := Executed(resp.call.value, env);
      && e.launch.Some?
      && e.launch.value.argv ==
           Sandbox.DockerArgv(env.hostDir, Sandbox.SelectToolchain(p.language.value, p.mainFile.GetOr("Main.java")).value)
      && e.launch.value.argv[4..8] == ["--network", "none", "--memory", "256m"]
      && e.launch.value.argv[12] ==
           Sandbox.SelectToolchain(p.language.value, p.mainFile.GetOr("Main.java")).value.image
      && e.launch.value.argv[15] ==
           Sandbox.SelectToolchain(p.language.value, p.mainFile.GetOr("Main.java")).value.command
      && e.launch.value.stdin == Sandbox.StdinText(p.input)
      && e.launch.value.files == p.files.GetOr(map[])
      && (env.process.Finished? ==>
            e.result == Sandbox.CombineOutput(Sandbox.ReadStream(env.process.stdout),
                                              Sandbox.ReadStream(env.process.stderr)))
  {
    var c := RateLimiter.ToCall(p);
    assert c.mainFileName == p.mainFile.GetOr("Main.java");
  }

  /** A request that names java and no main file compiles everything and
      runs class `Main` in the Temurin image. */
  lemma DefaultJavaRequestRunsMain(table: RateLimiter.LastAccepted, ip: string, now: int,
                                   p: RateLimiter.RunPayload, env: Sandbox.Environment)
    requires RateLimiter.Admit(table, ip, now).decision.Accepted?
    requires p.language == Some("java") && p.mainFile.None? && env.setupFailure.None?
    ensures var resp := RateLimiter.RunCode(table, ip, now, p).0;
      && resp.call.Some? && resp.call.value.language.Some?
      && var e := Executed(resp.call.value, env);
      && e.launch.Some?
      && e.launch.value.argv[12] == "eclipse-temurin:17-alpine"
      && e.launch.value.argv[15] == "javac *.java && java Main"
  {
    Sandbox.DefaultJavaMain();
    assert Strings.ToLower("java") in Sandbox.SupportedKeys by { Strings.LowerIdentity("java"); }
    AcceptedRequestLaunches(table, ip, now, p, env);
  }

  /** An accepted request in an unsupported language launches nothing and
      answers with the service's message, in the language's own spelling. */
  lemma UnsupportedLanguageLaunchesNothing(table: RateLimiter.LastAccepted, ip: string, now: int,
                                           p: RateLimiter.RunPayload, env: Sandbox.Environment)
    requires RateLimiter.Admit(table, ip, now).decision.Accepted?
    requires p.language.Some? && env.setupFailure.None?
    requires Strings.ToLower(p.language.value) !in Sandbox.SupportedKeys
    ensures var resp := RateLimiter.RunCode(table, ip, now, p).0;
      && resp.call.Some? && resp.call.value.language.Some?
      && Executed(resp.call.value, env) ==
           Sandbox.Execution(None, "Error: Language '" + p.language.value + "' is not supported yet.")
  {
  }

  /** A refused request never reaches the execution service. */
  lemma RefusedRequestRunsNothing(table: RateLimiter.LastAccepted, ip: string, now: int, p: RateLimiter.RunPayload)
    requires RateLimiter.Admit(table, ip, now).decision.Limited?
    ensures var (resp, t) := RateLimiter.RunCode(table, ip, now, p);
      resp.status == 429 && resp.call.None? && t == table
  {
  }
}

=== FILE: editor_client.dfy ===
/** The room view's synchronisation logic in `CodeEditor.jsx`, as a state
    machine `State x Event -> State x seq<OutMsg>`.

    The refs of the component become fields: `isConnected` is `guard`,
    `isLocalChange` is `localChange`, and `stompClient.current?.connected`
    together with an outstanding `client.connect` call is `link`. The code
    subscription is a closure created by the effect run that opened the
    connection; it compares inbound languages with the `language` of that
    render, kept here as `closureLanguage`. Outbound effects (socket calls,
    toasts, navigation) are emitted in order as `OutMsg`s. */
module EditorClient {
  import opened Wrappers
  import opened Messages

  const InitialCode := "// Welcome to Vylop!\n// Start typing..."
  const InitialLanguage := "java"

  /** `Down`: no client, or one that is not connected. `Connecting`: a
      `client.connect` call awaits its callback. `Open`: `stompClient.current`
      is connected and both subscriptions are live. */
  datatype Link = Down | Connecting | Open

  datatype State = State(
    roomId: string,
    username: string,         // "" when the navigation state carries none
    code: string,
    language: string,
    users: seq<string>,
    localChange: bool,        // isLocalChange.current
    guard: bool,              // isConnected.current
    link: Link,
    closureLanguage: string,  // `language` as captured by the code subscription
    cleanupArmed: bool)       // the latest effect run returned a cleanup function

  /** The body of a `/topic/users/<roomId>` message. */
  datatype UsersBody = UsersBody(kind: string, username: string, activeUsers: seq<string>)

  datatype Payload = Presence(presence: PresenceMessage) | Code(message: CodeMessage)

  datatype Style = Success | Plain | Failure

  datatype OutMsg =
    | OpenConnection                           // new SockJS, Stomp.over, client.connect
    | Subscribe(topic: string)
    | Send(destination: string, payload: Payload)
    | CloseConnection                          // stompClient.current.disconnect()
    | Notice(style: Style, text: string, id: Option<string>)
    | NavigateHome

  datatype Event =
    | EffectRun                   // the mount effect runs (again)
    | ConnectSucceeded            // success callback of client.connect
    | ConnectFailed               // error callback: failed connect or lost connection
    | Cleanup                     // React runs the cleanup of the latest effect run
    | EditorChange(value: string) // handleEditorChange
    | CodeArrived(message: CodeMessage)
    | UsersArrived(roster: UsersBody)
    | LanguageSelected(choice: string)

  datatype Transition = Transition(next: State, out: seq<OutMsg>)

  /** The component's state right after its first render. */
  function Mount(roomId: string, username: string): State {
    State(roomId, username, InitialCode, InitialLanguage, [], false, false, Down, InitialLanguage, false)
  }

  function CodeTopic(roomId: string): string { "/topic/code/" + roomId }
  function UsersTopic(roomId: string): string { "/topic/users/" + roomId }
  function CodeDestination(roomId: string): string { "/app/code/" + roomId }
  function JoinDestination(roomId: string): string { "/app/room/" + roomId + "/join" }
  function LeaveDestination(roomId: string): string { "/app/room/" + roomId + "/leave" }

  function JoinSend(s: State): OutMsg {
    Send(JoinDestination(s.roomId), Presence(PresenceMessage(s.username, JoinKind)))
  }

  function LeaveSend(s: State): OutMsg {
    Send(LeaveDestination(s.roomId), Presence(PresenceMessage(s.username, LeaveKind)))
  }

  // -----------------------------------------------------------------------
  // Handlers

  function OnEffectRun(s: State): Transition {
    if s.username == "" then
      Transition(s.(cleanupArmed := false), [Notice(Failure, "Username is required", None), NavigateHome])
    else if s.guard then
      Transition(s.(cleanupArmed := false), [])
    else
      Transition(s.(guard := true, link := Connecting, closureLanguage := s.language, cleanupArmed := true),
                 [OpenConnection])
  }

  function OnConnectSucceeded(s: State): Transition {
    if s.link != Connecting then Transition(s, [])
    else
      Transition(s.(link := Open),
                 [Subscribe(CodeTopic(s.roomId)), Subscribe(UsersTopic(s.roomId)), JoinSend(s)])
  }

  /** The error callback is unconditional: it may fire again after the link
      is already down (an ERROR frame, then the socket closing), and each
      time it clears the guard and shows the notice. */
  function OnConnectFailed(s: State): Transition {
    Transition(s.(guard := false, link := Down), [Notice(Failure, "Connection failed. Retrying...", None)])
  }

  function OnCleanup(s: State): Transition {
    if s.cleanupArmed && s.link == Open then
      Transition(s.(link := Down, guard := false, cleanupArmed := false), [LeaveSend(s), CloseConnection])
    else
      Transition(s.(cleanupArmed := false), [])
  }

  function OnEditorChange(s: State, value: string): Transition {
    if s.link != Open then Transition(s, [])
    else
      Transition(s.(localChange := true, code := value),
                 [Send(CodeDestination(s.roomId), Code(CodeMessage(s.username, value, s.language, CodeKind)))])
  }

  /** The language an applied code message leaves: the message's, when it
      has one that differs from the subscription's captured language. */
  function InboundLanguage(s: State, body: CodeMessage): string {
    if body.language != "" && body.language != s.closureLanguage then body.language else s.language
  }

  function OnCodeArrived(s: State, body: CodeMessage): Transition {
    if s.link != Open then Transition(s, [])
    else if s.localChange then Transition(s.(localChange := false), [])
    else Transition(s.(code := body.content, language := InboundLanguage(s, body), localChange := false), [])
  }

  function RosterNotices(localUser: string, body: UsersBody): seq<OutMsg> {
    (if body.kind == JoinKind && body.username != localUser
     then [Notice(Success, body.username + " joined", Some("join-" + body.username))] else [])
    + (if body.kind == LeaveKind
       then [Notice(Plain, body.username + " left", Some("leave-" + body.username))] else [])
  }

  function OnUsersArrived(s: State, body: UsersBody): Transition {
    if s.link != Open then Transition(s, [])
    else Transition(s.(users := body.activeUsers), RosterNotices(s.username, body))
  }

  function Step(s: State, e: Event): Transition {
    match e
    case EffectRun => OnEffectRun(s)
    case ConnectSucceeded => OnConnectSucceeded(s)
    case ConnectFailed => OnConnectFailed(s)
    case Cleanup => OnCleanup(s)
    case EditorChange(v) => OnEditorChange(s, v)
    case CodeArrived(b) => OnCodeArrived(s, b)
    case UsersArrived(b) => OnUsersArrived(s, b)
    case LanguageSelected(l) => Transition(s.(language := l), [])
  }

  /** Events processed one at a time; the outputs concatenated in order. */
  function Run(s: State, events: seq<Event>): Transition
    decreases |events|
  {
    if events == [] then Transition(s, [])
    else
      var t := Step(s, events[0]);
      var rest := Run(t.next, events[1..]);
      Transition(rest.next, t.out + rest.out)
  }

  // -----------------------------------------------------------------------
  // Per-event rules

  /** An edit while not connected publishes nothing and changes nothing; an
      edit while connected raises the echo flag, takes the new code and
      publishes exactly one CODE message with the current language. */
  lemma EditorChangeRule(s: State, value: string)
    ensures s.link != Open ==> Step(s, EditorChange(value)) == Transition(s, [])
    ensures s.link == Open ==>
      var t := Step(s, EditorChange(value));
      t.next.localChange && t.next.code == value &&
      t.next == s.(localChange := true, code := value) &&
      t.out == [Send("/app/code/" + s.roomId, Code(CodeMessage(s.username, value, s.language, "CODE")))]
  {
  }

  /** An inbound code message clears the echo flag. When the flag was clear
      it installs the content, and changes the language exactly when the
      message names one that differs from the captured language; when the
      flag was set it leaves code and language alone. */
  lemma CodeArrivedRule(s: State, body: CodeMessage)
    requires s.link == Open
    ensures var n := Step(s, CodeArrived(body)).next;
      && !n.localChange
      && Step(s, CodeArrived(body)).out == []
      && (s.localChange ==> n.code == s.code && n.language == s.language)
      && (!s.localChange ==> n.code == body.content)
      && (!s.localChange ==>
            n.language == (if body.language != "" && body.language != s.closureLanguage then body.language else s.language))
      && n.users == s.users && n.link == s.link && n.guard == s.guard
  {
  }

  /** Without a username the effect reports the error, goes home, and opens
      nothing, whatever the guard says. */
  lemma MissingUsernameGoesHome(s: State)
    requires s.username == ""
    ensures Step(s, EffectRun).out == [Notice(Failure, "Username is required", None), NavigateHome]
    ensures Step(s, EffectRun).next.guard == s.guard && Step(s, EffectRun).next.link == s.link
  {
  }

  /** With a username and the guard clear, the effect sets the guard, opens
      exactly one connection and captures the current language for the code
      subscription. */
  lemma EffectRunConnects(s: State)
    requires s.username != "" && !s.guard
    ensures Step(s, EffectRun).out == [OpenConnection]
    ensures var n := Step(s, EffectRun).next;
      n.guard && n.link == Connecting && n.closureLanguage == s.language && n.cleanupArmed
  {
  }

  /** While the guard is set, running the effect again opens nothing. */
  lemma GuardBlocksSecondConnection(s: State)
    requires s.username != "" && s.guard
    ensures Step(s, EffectRun).out == []
    ensures Step(s, EffectRun).next == s.(cleanupArmed := false)
  {
  }

  /** A failed connect (or a lost connection, or a repeated error callback)
      clears the guard, reports the failure and schedules nothing: no new
      connection is opened. */
  lemma FailureClearsGuard(s: State)
    ensures Step(s, ConnectFailed).next.guard == false
    ensures Step(s, ConnectFailed).next.link == Down
    ensures OpenConnection !in Step(s, ConnectFailed).out
    ensures Step(s, ConnectFailed).out == [Notice(Failure, "Connection failed. Retrying...", None)]
  {
  }

  /** A successful connect subscribes to the code topic, then the users
      topic, then sends exactly one JOIN. */
  lemma ConnectSucceededOrder(s: State)
    requires s.link == Connecting
    ensures Step(s, ConnectSucceeded).next.link == Open
    ensures Step(s, ConnectSucceeded).out ==
      [ Subscribe("/topic/code/" + s.roomId), Subscribe("/topic/users/" + s.roomId),
        Send("/app/room/" + s.roomId + "/join", Presence(PresenceMessage(s.username, "JOIN"))) ]
  {
  }

  /** Cleanup sends LEAVE and then disconnects, and only when the latest
      effect run registered it and the client is connected. */
  lemma CleanupOrder(s: State)
    ensures s.cleanupArmed && s.link == Open ==>
      Step(s, Cleanup).out ==
        [Send("/app/room/" + s.roomId + "/leave", Presence(PresenceMessage(s.username, "LEAVE"))), CloseConnection]
      && !Step(s, Cleanup).next.guard
    ensures !(s.cleanupArmed && s.link == Open) ==> Step(s, Cleanup).out == []
  {
  }

  /** A users message replaces the roster with `activeUsers` exactly; a JOIN
      notice is raised only for someone else, a LEAVE notice for anyone,
      keyed `join-<name>` / `leave-<name>`. */
  lemma UsersArrivedRule(s: State, body: UsersBody)
    requires s.link == Open
    ensures Step(s, UsersArrived(body)).next.users == body.activeUsers
    ensures var out := Step(s, UsersArrived(body)).out;
      && (body.kind == "JOIN" && body.username != s.username ==>
            out == [Notice(Success, body.username + " joined", Some("join-" + body.username))])
      && (body.kind == "JOIN" && body.username == s.username ==> out == [])
      && (body.kind == "LEAVE" ==> out == [Notice(Plain, body.username + " left", Some("leave-" + body.username))])
      && (body.kind != "JOIN" && body.kind != "LEAVE" ==> out == [])
  {
  }

  // -----------------------------------------------------------------------
  // Invariants over runs

  /** The guard is set exactly while a connection is pending or open. */
  ghost predicate Valid(s: State) {
    s.guard <==> s.link != Down
  }

  lemma StepPreservesValid(s: State, e: Event)
    requires Valid(s)
    ensures Valid(Step(s, e).next)
    ensures OpenConnection in Step(s, e).out ==> s.link == Down
  {
  }

  /** From any valid state, every run keeps the guard in step with the link,
      and a connection is only ever opened when none is pending or open. */
  lemma {:induction false} RunPreservesValid(s: State, events: seq<Event>)
    requires Valid(s)
    ensures Valid(Run(s, events).next)
    decreases |events|
  {
    if events != [] {
      StepPreservesValid(s, events[0]);
      RunPreservesValid(Step(s, events[0]).next, events[1..]);
    }
  }

  lemma MountIsValid(roomId: string, username: string)
    ensures Valid(Mount(roomId, username))
    ensures Mount(roomId, username).link == Down
  {
  }

  function CountSends(out: seq<OutMsg>, destination: string): nat {
    if out == [] then 0
    else (if out[0].Send? && out[0].destination == destination then 1 else 0) + CountSends(out[1..], destination)
  }

  lemma {:induction false} CountSendsAppend(a: seq<OutMsg>, b: seq<OutMsg>, destination: string)
    ensures CountSends(a + b, destination) == CountSends(a, destination) + CountSends(b, destination)
    decreases |a|
  {
    if a != [] {
      assert (a + b)[0] == a[0];
      assert (a + b)[1..] == a[1..] + b;
      CountSendsAppend(a[1..], b, destination);
    } else {
      assert a + b == b;
    }
  }

  lemma {:induction false} NoSendsCountZero(out: seq<OutMsg>, destination: string)
    requires forall i :: 0 <= i < |out| ==> !out[i].Send?
    ensures CountSends(out, destination) == 0
    decreases |out|
  {
    if out != [] {
      assert !out[0].Send?;
      NoSendsCountZero(out[1..], destination);
    }
  }

  /** Messages that are not sends, followed by one message: only that one
      can count. */
  lemma CountSendsAfterNonSends(pre: seq<OutMsg>, m: OutMsg, destination: string)
    requires forall i :: 0 <= i < |pre| ==> !pre[i].Send?
    ensures CountSends(pre + [m], destination) == (if m.Send? && m.destination == destination then 1 else 0)
  {
    NoSendsCountZero(pre, destination);
    CountSendsAppend(pre, [m], destination);
    assert [m][1..] == [];
    assert CountSends([m], destination) == (if m.Send? && m.destination == destination then 1 else 0);
  }

  function OpenCount(s: State): nat {
    if s.link == Open then 1 else 0
  }

  /** The JOIN and LEAVE destinations differ (in their last letter). */
  lemma JoinIsNotLeave(roomId: string)
    ensures JoinDestination(roomId) != LeaveDestination(roomId)
  {
    var join, leave := JoinDestination(roomId), LeaveDestination(roomId);
    assert join[|join| - 1] == 'n';
    assert leave[|leave| - 1] == 'e';
  }

  /** Completing a pending connection sends one JOIN and no LEAVE. */
  lemma ConnectSendsOneJoin(s: State)
    requires s.link == Connecting
    ensures CountSends(OnConnectSucceeded(s).out, JoinDestination(s.roomId)) == 1
    ensures CountSends(OnConnectSucceeded(s).out, LeaveDestination(s.roomId)) == 0
  {
    JoinIsNotLeave(s.roomId);
    var pre := [Subscribe(CodeTopic(s.roomId)), Subscribe(UsersTopic(s.roomId))];
    assert OnConnectSucceeded(s).out == pre + [JoinSend(s)];
    CountSendsAfterNonSends(pre, JoinSend(s), JoinDestination(s.roomId));
    CountSendsAfterNonSends(pre, JoinSend(s), LeaveDestination(s.roomId));
  }

  /** An armed cleanup of an open connection sends one LEAVE and no JOIN. */
  lemma CleanupSendsOneLeave(s: State)
    requires s.cleanupArmed && s.link == Open
    ensures CountSends(OnCleanup(s).out, LeaveDestination(s.roomId)) == 1
    ensures CountSends(OnCleanup(s).out, JoinDestination(s.roomId)) == 0
  {
    JoinIsNotLeave(s.roomId);
    var out := OnCleanup(s).out;
    assert out == [LeaveSend(s)] + [CloseConnection];
    forall d | d in {JoinDestination(s.roomId), LeaveDestination(s.roomId)}
      ensures CountSends(out, d) == (if d == LeaveDestination(s.roomId) then 1 else 0)
    {
      CountSendsAppend([LeaveSend(s)], [CloseConnection], d);
      CountSendsAfterNonSends([], LeaveSend(s), d);
      CountSendsAfterNonSends([], CloseConnection, d);
      assert [] + [LeaveSend(s)] == [LeaveSend(s)];
      assert [] + [CloseConnection] == [CloseConnection];
    }
  }

  /** An edit sends to the code destination only. */
  lemma EditSendsNoPresence(s: State, value: string)
    ensures CountSends(OnEditorChange(s, value).out, JoinDestination(s.roomId)) == 0
    ensures CountSends(OnEditorChange(s, value).out, LeaveDestination(s.roomId)) == 0
  {
    var out := OnEditorChange(s, value).out;
    if s.link == Open {
      var code, join, leave := CodeDestination(s.roomId), JoinDestination(s.roomId), LeaveDestination(s.roomId);
      assert code[5] == 'c' && join[5] == 'r' && leave[5] == 'r';
      assert out == [Send(code, Code(CodeMessage(s.username, value, s.language, CodeKind)))];
      assert out[1..] == [];
    }
  }

  lemma StepLeaveBalance(s: State, e: Event)
    ensures var t := Step(s, e);
      CountSends(t.out, LeaveDestination(s.roomId)) + OpenCount(t.next)
        <= CountSends(t.out, JoinDestination(s.roomId)) + OpenCount(s)
    ensures Step(s, e).next.roomId == s.roomId
  {
    var t := Step(s, e);
    var join, leave := JoinDestination(s.roomId), LeaveDestination(s.roomId);
    match e
    case ConnectSucceeded =>
      if s.link == Connecting {
        ConnectSendsOneJoin(s);
      }
    case Cleanup =>
      if s.cleanupArmed && s.link == Open {
        CleanupSendsOneLeave(s);
      }
    case EditorChange(v) =>
      EditSendsNoPresence(s, v);
    case EffectRun =>
      NoSendsCountZero(t.out, join);
      NoSendsCountZero(t.out, leave);
    case UsersArrived(b) =>
      NoSendsCountZero(t.out, join);
      NoSendsCountZero(t.out, leave);
    case _ =>
  }

  /** No LEAVE is sent without a JOIN before it: over any run, the LEAVEs
      sent, plus one if the connection is still open at the end, never
      exceed the JOINs sent plus one if it was open at the start. */
  lemma {:induction false} LeaveNeverOutrunsJoin(s: State, events: seq<Event>)
    ensures var t := Run(s, events);
      CountSends(t.out, LeaveDestination(s.roomId)) + OpenCount(t.next)
        <= CountSends(t.out, JoinDestination(s.roomId)) + OpenCount(s)
    ensures Run(s, events).next.roomId == s.roomId
    decreases |events|
  {
    if events != [] {
      var t := Step(s, events[0]);
      StepLeaveBalance(s, events[0]);
      LeaveNeverOutrunsJoin(t.next, events[1..]);
      var rest := Run(t.next, events[1..]);
      CountSendsAppend(t.out, rest.out, LeaveDestination(s.roomId));
      CountSendsAppend(t.out, rest.out, JoinDestination(s.roomId));
    }
  }

  /** Without a successful connect nothing is ever published. */
  lemma {:induction false} NoSendWithoutConnect(s: State, events: seq<Event>)
    requires s.link != Open
    requires ConnectSucceeded !in events
    ensures forall i :: 0 <= i < |Run(s, events).out| ==> !Run(s, events).out[i].Send?
    ensures Run(s, events).next.link != Open
    decreases |events|
  {
    if events != [] {
      var t := Step(s, events[0]);
      assert events[0] != ConnectSucceeded;
      assert events == [events[0]] + events[1..];
      NoSendWithoutConnect(t.next, events[1..]);
    }
  }

  // -----------------------------------------------------------------------
  // Scenarios

  /** Running `[e] + rest` is stepping `e` and then running `rest`. */
  lemma RunCons(s: State, e: Event, rest: seq<Event>)
    ensures Run(s, [e] + rest).next == Run(Step(s, e).next, rest).next
    ensures Run(s, [e] + rest).out == Step(s, e).out + Run(Step(s, e).next, rest).out
  {
    assert ([e] + rest)[0] == e;
    assert ([e] + rest)[1..] == rest;
  }

  /** The CODE message an edit of `s` to `v` publishes, as the room echoes it. */
  function EchoOf(s: State, v: string): CodeMessage {
    CodeMessage(s.username, v, s.language, CodeKind)
  }

  /** Two edits whose echoes come back in order: the first echo is
      swallowed and the second re-installs the latest edit, so the code the
      user sees does not change. */
  lemma TwoEditsInOrder(s: State, v1: string, v2: string)
    requires s.link == Open
    ensures var t := Run(s, [EditorChange(v1), EditorChange(v2), CodeArrived(EchoOf(s, v1)), CodeArrived(EchoOf(s, v2))]);
      t.next.code == v2 && !t.next.localChange && t.next.language == s.language
  {
    var m1, m2 := EchoOf(s, v1), EchoOf(s, v2);
    var s1 := Step(s, EditorChange(v1)).next;
    var s2 := Step(s1, EditorChange(v2)).next;
    var s3 := Step(s2, CodeArrived(m1)).next;
    assert s3.code == v2 && !s3.localChange && s3.link == Open && s3.language == s.language;
    RunCons(s3, CodeArrived(m2), []);
    RunCons(s2, CodeArrived(m1), [CodeArrived(m2)]);
    RunCons(s1, EditorChange(v2), [CodeArrived(m1), CodeArrived(m2)]);
    RunCons(s, EditorChange(v1), [EditorChange(v2), CodeArrived(m1), CodeArrived(m2)]);
  }

  /** The echo flag is a boolean, not a counter: after three quick edits, the
      echo of the first is swallowed but the echo of the second is applied,
      so the editor falls back to the second edit although the user last
      typed the third. */
  lemma ThreeEditsRevert(s: State, v1: string, v2: string, v3: string)
    requires s.link == Open
    ensures var t := Run(s, [EditorChange(v1), EditorChange(v2), EditorChange(v3),
                             CodeArrived(EchoOf(s, v1)), CodeArrived(EchoOf(s, v2))]);
      t.next.code == v2 && !t.next.localChange && t.next.language == s.language
  {
    var m1, m2 := EchoOf(s, v1), EchoOf(s, v2);
    var s1 := Step(s, EditorChange(v1)).next;
    var s2 := Step(s1, EditorChange(v2)).next;
    var s3 := Step(s2, EditorChange(v3)).next;
    var s4 := Step(s3, CodeArrived(m1)).next;
    assert s4.code == v3 && !s4.localChange && s4.link == Open && s4.language == s.language;
    RunCons(s4, CodeArrived(m2), []);
    RunCons(s3, CodeArrived(m1), [CodeArrived(m2)]);
    RunCons(s2, EditorChange(v3), [CodeArrived(m1), CodeArrived(m2)]);
    RunCons(s1, EditorChange(v2), [EditorChange(v3), CodeArrived(m1), CodeArrived(m2)]);
    RunCons(s, EditorChange(v1), [EditorChange(v2), EditorChange(v3), CodeArrived(m1), CodeArrived(m2)]);
  }

  /** The code subscription compares against the language captured when the
      connection was made: after the user switches to python, an inbound
      message labelled with that captured language (java) is not applied
      to the language, while its content still replaces the code. */
  lemma StaleLanguageScenario(roomId: string, username: string, m: CodeMessage)
    requires username != ""
    requires m.language == "java"
    ensures var t := Run(Mount(roomId, username),
                         [EffectRun, ConnectSucceeded, LanguageSelected("python"), CodeArrived(m)]);
      t.next.language == "python" && t.next.code == m.content
  {
    var s0 := Mount(roomId, username);
    var s1 := Step(s0, EffectRun).next;
    assert s1.closureLanguage == "java" && s1.link == Connecting;
    var s2 := Step(s1, ConnectSucceeded).next;
    var s3 := Step(s2, LanguageSelected("python")).next;
    assert s3.language == "python" && s3.link == Open && !s3.localChange;
    RunCons(s3, CodeArrived(m), []);
    RunCons(s2, LanguageSelected("python"), [CodeArrived(m)]);
    RunCons(s1, ConnectSucceeded, [LanguageSelected("python"), CodeArrived(m)]);
    RunCons(s0, EffectRun, [ConnectSucceeded, LanguageSelected("python"), CodeArrived(m)]);
  }

  /** The outputs and final state of the remount scenario below, step by
      step. */
  lemma RemountRun(roomId: string, username: string)
    requires username != ""
    ensures var t := Run(Mount(roomId, username), [EffectRun, Cleanup, EffectRun, ConnectSucceeded, Cleanup]);
      && t.out == [OpenConnection, Subscribe(CodeTopic(roomId)), Subscribe(UsersTopic(roomId))]
                   + [Send(JoinDestination(roomId), Presence(PresenceMessage(username, JoinKind)))]
      && t.next.link == Open
  {
    var s0 := Mount(roomId, username);
    var t1 := Step(s0, EffectRun);
    var t2 := Step(t1.next, Cleanup);
    var t3 := Step(t2.next, EffectRun);
    var t4 := Step(t3.next, ConnectSucceeded);
    var t5 := Step(t4.next, Cleanup);
    assert t1.out == [OpenConnection];
    assert t2.out == [] && t3.out == [] && t5.out == [];
    assert t4.out == [Subscribe(CodeTopic(roomId)), Subscribe(UsersTopic(roomId)), JoinSend(t3.next)];
    RunCons(t4.next, Cleanup, []);
    RunCons(t3.next, ConnectSucceeded, [Cleanup]);
    RunCons(t2.next, EffectRun, [ConnectSucceeded, Cleanup]);
    RunCons(t1.next, Cleanup, [EffectRun, ConnectSucceeded, Cleanup]);
    RunCons(s0, EffectRun, [Cleanup, EffectRun, ConnectSucceeded, Cleanup]);
  }

  /** A cleanup and re-run before the connection completes (e.g. a `roomId`
      change) leaves a connection that sends JOIN and whose later cleanup
      sends no LEAVE and does not close: the second run returned early and
      registered no cleanup. */
  lemma RemountBeforeConnectLosesLeave(roomId: string, username: string)
    requires username != ""
    ensures var t := Run(Mount(roomId, username), [EffectRun, Cleanup, EffectRun, ConnectSucceeded, Cleanup]);
      && CountSends(t.out, "/app/room/" + roomId + "/join") == 1
      && CountSends(t.out, "/app/room/" + roomId + "/leave") == 0
      && CloseConnection !in t.out
      && t.next.link == Open
  {
    var t := Run(Mount(roomId, username), [EffectRun, Cleanup, EffectRun, ConnectSucceeded, Cleanup]);
    RemountRun(roomId, username);
    JoinIsNotLeave(roomId);
    var pre := [OpenConnection, Subscribe(CodeTopic(roomId)), Subscribe(UsersTopic(roomId))];
    var join := Send(JoinDestination(roomId), Presence(PresenceMessage(username, JoinKind)));
    assert t.out == pre + [join];
    CountSendsAfterNonSends(pre, join, JoinDestination(roomId));
    CountSendsAfterNonSends(pre, join, LeaveDestination(roomId));
    assert CloseConnection !in t.out by {
      assert t.out == [OpenConnection, Subscribe(CodeTopic(roomId)), Subscribe(UsersTopic(roomId)), join];
    }
  }
}

=== FILE: messages.dfy ===
/** The message records exchanged over the room topics (`CodeMessage.java`,
    `ChatMessage.java`, `CursorMessage.java`, the typing map). The server
    relays them unchanged; the editor client builds and reads `CodeMessage`. */
module Messages {

  /** `{sender, content, language, type}`; a missing field is "". */
  datatype CodeMessage = CodeMessage(sender: string, content: string, language: string, kind: string)

  /** `{sender, content, timestamp}`; the timestamp is whatever the sender put there. */
  datatype ChatMessage = ChatMessage(sender: string, content: string, timestamp: string)

  datatype CursorMessage = CursorMessage(username: string, lineNumber: int, column: int)

  /** The `{username, type}` body the client sends to `/app/room/<id>/join` and `/leave`. */
  datatype PresenceMessage = PresenceMessage(username: string, kind: string)

  const CodeKind := "CODE"
  const JoinKind := "JOIN"
  const LeaveKind := "LEAVE"
}

=== FILE: rate_limiter.dfy ===
/** The per-address cooldown of `CodeExecutionController.runCode` and the
    payload defaults it applies before calling the execution service. The
    clock reading (`System.currentTimeMillis()`) is a parameter. */
module RateLimiter {
  import opened Wrappers
  import Strings

  const CooldownMillis: int := 3000

  /** Remote address -> time of the last accepted request, in milliseconds. */
  type LastAccepted = map<string, int>

  datatype Decision =
    | Accepted
    | Limited(waitSeconds: int)   // answered with status 429

  datatype Verdict = Verdict(decision: Decision, table: LastAccepted)

  /** The rate-limit check: a known address whose last accepted request is
      less than the cooldown ago is refused, with the remaining whole
      seconds (Java's `long` division; the dividend is positive here); any
      other request is accepted and its time recorded. */
  function Admit(table: LastAccepted, ip: string, now: int): (v: Verdict)
    ensures v.decision.Accepted? <==> (ip !in table || now - table[ip] >= CooldownMillis)
    ensures v.decision.Accepted? ==> v.table == table[ip := now]
    ensures v.decision.Limited? ==> v.table == table
    ensures v.decision.Limited? ==> v.decision.waitSeconds * 1000 <= CooldownMillis - (now - table[ip])
                                      < (v.decision.waitSeconds + 1) * 1000
    ensures forall other :: other != ip ==> (other in v.table <==> other in table)
    ensures forall other :: other != ip && other in table ==> v.table[other] == table[other]
  {
    if ip in table && now - table[ip] < CooldownMillis then
      Verdict(Limited((CooldownMillis - (now - table[ip])) / 1000), table)
    else
      Verdict(Accepted, table[ip := now])
  }

  const WaitPrefix := "Rate limit exceeded. Please wait "
  const WaitSuffix := " seconds before running code again."

  /** The 429 response body. */
  function LimitedBody(waitSeconds: int): string {
    WaitPrefix + Strings.IntToString(waitSeconds) + WaitSuffix
  }

  /** With a clock that does not run backwards, the wait is 0..3 seconds,
      and 3 only for a repeat within the same millisecond. */
  lemma WaitWithinCooldown(table: LastAccepted, ip: string, now: int)
    requires ip in table && 0 <= now - table[ip] < CooldownMillis
    ensures Admit(table, ip, now).decision.Limited?
    ensures 0 <= Admit(table, ip, now).decision.waitSeconds <= 3
    ensures Admit(table, ip, now).decision.waitSeconds == 3 <==> now == table[ip]
  {
  }

  /** The first request from an address is always accepted. */
  lemma FirstRequestAccepted(table: LastAccepted, ip: string, now: int)
    requires ip !in table
    ensures Admit(table, ip, now) == Verdict(Accepted, table[ip := now])
  {
  }

  /** A refused request does not restart the cooldown: retrying keeps being
      measured from the last accepted request, so a request `CooldownMillis`
      after the accepted one is admitted however many were refused between. */
  lemma {:induction false} RefusalsDoNotExtend(table: LastAccepted, ip: string, t0: int, retries: seq<int>)
    requires forall i :: 0 <= i < |retries| ==> t0 <= retries[i] < t0 + CooldownMillis
    ensures var t := Replay(table[ip := t0], ip, retries);
      t == table[ip := t0] && Admit(t, ip, t0 + CooldownMillis).decision.Accepted?
    decreases |retries|
  {
    if retries != [] {
      RefusalsDoNotExtend(table, ip, t0, retries[1..]);
    }
  }

  /** The table after a series of requests from one address. */
  function Replay(table: LastAccepted, ip: string, times: seq<int>): LastAccepted
    decreases |times|
  {
    if times == [] then table else Replay(Admit(table, ip, times[0]).table, ip, times[1..])
  }

  // -----------------------------------------------------------------------
  // Payload extraction

  /** The fields `runCode` reads from its JSON body; absent fields are `None`. */
  datatype RunPayload = RunPayload(
    language: Option<string>,
    code: Option<string>,
    input: Option<string>,
    mainFile: Option<string>,
    files: Option<map<string, string>>)

  datatype ExecutionCall = ExecutionCall(
    language: Option<string>,
    code: Option<string>,
    input: Option<string>,
    mainFileName: string,
    files: Option<map<string, string>>)

  /** `getOrDefault("mainFile", "Main.java")`; the other fields pass as they are. */
  function ToCall(p: RunPayload): (c: ExecutionCall)
    ensures p.mainFile.None? ==> c.mainFileName == "Main.java"
    ensures p.mainFile.Some? ==> c.mainFileName == p.mainFile.value
    ensures c.language == p.language && c.input == p.input && c.files == p.files && c.code == p.code
  {
    ExecutionCall(p.language, p.code, p.input, p.mainFile.GetOr("Main.java"), p.files)
  }

  datatype Response = Response(status: int, call: Option<ExecutionCall>, text: string)

  /** The controller's outcome: 429 with the wait message, or an accepted
      call to the execution service (whose text is produced there). */
  function RunCode(table: LastAccepted, ip: string, now: int, p: RunPayload): (r: (Response, LastAccepted))
    ensures r.0.status == 429 <==> Admit(table, ip, now).decision.Limited?
    ensures r.0.status == 429 ==> r.1 == table && r.0.call.None?
    ensures r.0.status == 200 ==> r.1 == table[ip := now] && r.0.call == Some(ToCall(p))
    ensures r.0.status == 200 || r.0.status == 429
  {
    var v := Admit(table, ip, now);
    match v.decision
    case Limited(w) => (Response(429, None, LimitedBody(w)), v.table)
    case Accepted => (Response(200, Some(ToCall(p)), ""), v.table)
  }

  /** A refusal's body names the wait: between the fixed prefix and suffix
      it holds only digits, and they read back as the limiter's wait. */
  lemma RefusalNamesWait(table: LastAccepted, ip: string, now: int, p: RunPayload)
    requires Admit(table, ip, now).decision.Limited?
    ensures var body := RunCode(table, ip, now, p).0.text;
      && Strings.StartsWith(body, WaitPrefix) && Strings.EndsWith(body, WaitSuffix)
      && |body| > |WaitPrefix| + |WaitSuffix|
      && var digits := body[|WaitPrefix|..|body| - |WaitSuffix|];
      && (forall i :: 0 <= i < |digits| ==> Strings.IsDigit(digits[i]))
      && Strings.ParseNat(digits) == Admit(table, ip, now).decision.waitSeconds
  {
    var w := Admit(table, ip, now).decision.waitSeconds;
    assert w >= 0;
    var digits := Strings.NatToString(w);
    assert Strings.IntToString(w) == digits;
    var body := RunCode(table, ip, now, p).0.text;
    assert body == WaitPrefix + digits + WaitSuffix;
    assert body[..|WaitPrefix|] == WaitPrefix;
    assert body[|body| - |WaitSuffix|..] == WaitSuffix;
    assert body[|WaitPrefix|..|body| - |WaitSuffix|] == digits;
    Strings.NatToStringRoundTrip(w);
  }
}

=== FILE: room_roster.dfy ===
/** The message handlers of `EditorController.java`: the shared map from
    room id to the set of usernames in it, join / leave / socket-disconnect
    handling, and the pass-through relays. Broadcasts through the messaging
    template are returned as a sequence of `Broadcast`s. */
module RoomRoster {
  import opened Wrappers
  import opened Messages

  type Roster = map<string, set<string>>

  /** The two session attributes `joinRoom` records for a socket session. */
  datatype Session = Session(username: Option<string>, roomId: Option<string>)

  const NewSession := Session(None, None)

  /** A `UserMessage` as broadcast: the set behind the `activeUsers` list
      (the list follows the set's iteration order, which is not modelled). */
  datatype RosterMessage = RosterMessage(username: string, activeUsers: set<string>, kind: string)

  datatype Payload =
    | UsersPayload(roster: RosterMessage)
    | CodePayload(code: CodeMessage)
    | ChatPayload(chat: ChatMessage)
    | TypingPayload(typing: map<string, string>)
    | CursorPayload(cursor: CursorMessage)

  datatype Broadcast = Broadcast(topic: string, payload: Payload)

  datatype Outcome = Outcome(roster: Roster, out: seq<Broadcast>)

  /** A join also updates the session's attributes. */
  datatype JoinOutcome = JoinOutcome(roster: Roster, session: Session, out: seq<Broadcast>)

  function Topic(kind: string, roomId: string): string {
    "/topic/" + kind + "/" + roomId
  }

  lemma TopicSpelling(kind: string, roomId: string)
    ensures Topic(kind, roomId) == "/topic/" + kind + "/" + roomId
    ensures kind == "users" ==> Topic(kind, roomId) == "/topic/users/" + roomId
  {
    if kind == "users" {
      assert "/topic/" + kind + "/" == "/topic/users/";
    }
  }

  /** The users of `roomId`, empty when the room has no entry. */
  function Members(r: Roster, roomId: string): set<string> {
    if roomId in r then r[roomId] else {}
  }

  // -----------------------------------------------------------------------
  // Relays

  /** `sendCode`, `sendChatMessage`, `sendTypingEvent`, `sendCursorEvent`:
      the payload goes out unchanged on the room's topic of that kind. */
  function Relay(r: Roster, roomId: string, payload: Payload): (o: Outcome)
    requires !payload.UsersPayload?
  {
    var kind := match payload
      case CodePayload(_) => "code"
      case ChatPayload(_) => "chat"
      case TypingPayload(_) => "typing"
      case CursorPayload(_) => "cursor";
    Outcome(r, [Broadcast(Topic(kind, roomId), payload)])
  }

  lemma RelayForwardsUnchanged(r: Roster, roomId: string, payload: Payload)
    requires !payload.UsersPayload?
    ensures Relay(r, roomId, payload).roster == r
    ensures |Relay(r, roomId, payload).out| == 1
    ensures Relay(r, roomId, payload).out[0].payload == payload
    ensures payload.CodePayload? ==> Relay(r, roomId, payload).out[0].topic == "/topic/code/" + roomId
    ensures payload.ChatPayload? ==> Relay(r, roomId, payload).out[0].topic == "/topic/chat/" + roomId
    ensures payload.TypingPayload? ==> Relay(r, roomId, payload).out[0].topic == "/topic/typing/" + roomId
    ensures payload.CursorPayload? ==> Relay(r, roomId, payload).out[0].topic == "/topic/cursor/" + roomId
  {
  }

  // -----------------------------------------------------------------------
  // Join and leave

  /** `joinRoom`: record the session attributes, add the user to the room's
      set (creating it when absent) and broadcast one JOIN with the roster. */
  function Join(r: Roster, session: Session, roomId: string, username: string): (o: JoinOutcome)
    ensures roomId in o.roster && o.roster[roomId] == Members(r, roomId) + {username}
    ensures forall id :: id in r && id != roomId ==> id in o.roster && o.roster[id] == r[id]
    ensures o.roster.Keys == r.Keys + {roomId}
    ensures o.session == Session(Some(username), Some(roomId))
    ensures o.out == [Broadcast("/topic/users/" + roomId, UsersPayload(RosterMessage(username, o.roster[roomId], "JOIN")))]
  {
    var r' := r[roomId := Members(r, roomId) + {username}];
    TopicSpelling("users", roomId);
    JoinOutcome(r', session.(username := Some(username), roomId := Some(roomId)),
            [Broadcast(Topic("users", roomId), UsersPayload(RosterMessage(username, r'[roomId], JoinKind)))])
  }

  /** `handleUserLeave`: only a user present in the room is removed, and
      only then is a LEAVE with the remaining roster broadcast. The room
      keeps its entry even when it becomes empty. */
  function HandleUserLeave(r: Roster, roomId: string, username: string): (o: Outcome)
    ensures roomId in r && username in r[roomId] ==>
      && o.roster == r[roomId := r[roomId] - {username}]
      && o.out == [Broadcast("/topic/users/" + roomId,
                             UsersPayload(RosterMessage(username, r[roomId] - {username}, "LEAVE")))]
    ensures !(roomId in r && username in r[roomId]) ==> o.roster == r && o.out == []
    ensures o.roster.Keys == r.Keys
  {
    if roomId in r && username in r[roomId] then
      var rest := r[roomId] - {username};
      TopicSpelling("users", roomId);
      Outcome(r[roomId := rest],
              [Broadcast(Topic("users", roomId), UsersPayload(RosterMessage(username, rest, LeaveKind)))])
    else
      Outcome(r, [])
  }

  /** `leaveRoom`: the explicit leave message. */
  function Leave(r: Roster, roomId: string, username: string): Outcome {
    HandleUserLeave(r, roomId, username)
  }

  /** `handleWebSocketDisconnectListener`: the same cleanup, for the user and
      room recorded in the session, and nothing when either is missing. */
  function Disconnect(r: Roster, session: Session): (o: Outcome)
    ensures session.username.None? || session.roomId.None? ==> o.roster == r && o.out == []
    ensures session.username.Some? && session.roomId.Some? ==>
      o == HandleUserLeave(r, session.roomId.value, session.username.value)
  {
    if session.username.Some? && session.roomId.Some? then
      HandleUserLeave(r, session.roomId.value, session.username.value)
    else
      Outcome(r, [])
  }

  // -----------------------------------------------------------------------
  // Properties

  /** Joining is idempotent on the roster: a second join of the same user
      leaves the map as the first left it (but broadcasts again). */
  lemma JoinIdempotent(r: Roster, s1: Session, s2: Session, roomId: string, username: string)
    ensures var o1 := Join(r, s1, roomId, username);
      Join(o1.roster, s2, roomId, username).roster == o1.roster
  {
  }

  /** Leave undoes join: a user not yet in an existing room who joins and
      then leaves restores the roster exactly. */
  lemma LeaveUndoesJoin(r: Roster, s: Session, roomId: string, username: string)
    requires roomId in r && username !in r[roomId]
    ensures Leave(Join(r, s, roomId, username).roster, roomId, username).roster == r
  {
    var r1 := Join(r, s, roomId, username).roster;
    assert r1[roomId] - {username} == r[roomId];
  }

  /** When the room had no entry, join-then-leave leaves the room mapped to
      the empty set rather than removing it. */
  lemma LeaveKeepsEmptyRoom(r: Roster, s: Session, roomId: string, username: string)
    requires roomId !in r
    ensures var r2 := Leave(Join(r, s, roomId, username).roster, roomId, username).roster;
      roomId in r2 && r2[roomId] == {} && r2 == r[roomId := {}]
  {
  }

  /** An explicit leave followed by the socket's disconnect broadcasts one
      LEAVE in total: the second pass finds the user gone. */
  lemma LeaveThenDisconnectBroadcastsOnce(r: Roster, roomId: string, username: string)
    requires roomId in r && username in r[roomId]
    ensures var o1 := Leave(r, roomId, username);
      var o2 := Disconnect(o1.roster, Session(Some(username), Some(roomId)));
      |o1.out| == 1 && o2.out == [] && o2.roster == o1.roster
  {
  }

  /** The session remembers only the latest join: a session that joined A
      and then B is removed from B alone when its socket disconnects. */
  lemma DisconnectForgetsEarlierRoom(r: Roster, a: string, b: string, username: string)
    requires a != b
    ensures var o1 := Join(r, NewSession, a, username);
      var o2 := Join(o1.roster, o1.session, b, username);
      var o3 := Disconnect(o2.roster, o2.session);
      username in o3.roster[a] && username !in o3.roster[b]
  {
  }

  // -----------------------------------------------------------------------
  // Reference definition: the roster as a fold over the room's history

  datatype RoomEvent =
    | Joined(roomId: string, username: string)
    | Left(roomId: string, username: string)
    | Relayed(roomId: string, payload: Payload)

  predicate Supported(e: RoomEvent) {
    e.Relayed? ==> !e.payload.UsersPayload?
  }

  function Apply(r: Roster, e: RoomEvent): Roster
    requires Supported(e)
  {
    match e
    case Joined(id, u) => Join(r, NewSession, id, u).roster
    case Left(id, u) => Leave(r, id, u).roster
    case Relayed(id, p) => Relay(r, id, p).roster
  }

  function Replay(r: Roster, events: seq<RoomEvent>): Roster
    requires forall i :: 0 <= i < |events| ==> Supported(events[i])
    decreases |events|
  {
    if events == [] then r else Replay(Apply(r, events[0]), events[1..])
  }

  /** The user events concerning `(roomId, username)`, the last one decides. */
  function LastSay(events: seq<RoomEvent>, roomId: string, username: string): Option<bool>
  {
    if events == [] then None
    else
      var later := LastSay(events[1..], roomId, username);
      if later.Some? then later
      else match events[0]
        case Joined(id, u) => if id == roomId && u == username then Some(true) else None
        case Left(id, u) => if id == roomId && u == username then Some(false) else None
        case Relayed(_, _) => None
  }

  /** After any sequence of joins, leaves and relays, a user is in a room
      exactly when their last join or leave for that room was a join (or,
      absent both, when they were there to begin with). Other users' events
      and relays never affect membership. */
  lemma {:induction false} MembershipFollowsLastEvent(r: Roster, events: seq<RoomEvent>, roomId: string, username: string)
    requires forall i :: 0 <= i < |events| ==> Supported(events[i])
    ensures var say := LastSay(events, roomId, username);
      username in Members(Replay(r, events), roomId) <==>
        (if say.Some? then say.value else username in Members(r, roomId))
    decreases |events|
  {
    if events != [] {
      var r1 := Apply(r, events[0]);
      MembershipFollowsLastEvent(r1, events[1..], roomId, username);
      match events[0]
      case Joined(id, u) =>
      case Left(id, u) =>
      case Relayed(id, p) =>
    }
  }
}

=== FILE: sandbox.dfy ===
/** The deterministic parts of `CodeExecutionService`: the language switch
    that picks a container image and shell command, the `docker run`
    argument list, the text written to the container's standard input, the
    line-joining `readStream`, and the way standard output and standard
    error are combined. The temporary directory, the process and its
    streams are parameters (`Environment`). */
module Sandbox {
  import opened Wrappers
  import Strings

  datatype Toolchain = Toolchain(image: string, command: string)

  /** The lower-cased language names the switch accepts. */
  const SupportedKeys: set<string> := {"java", "python", "cpp", "c++", "javascript", "typescript", "go", "rust"}

  const GoPrefix := "GO111MODULE=off CGO_ENABLED=0 GOCACHE=/tmp go run "

  /** The `switch (language.toLowerCase())`; an unsupported language is
      reported with its original spelling. */
  function SelectToolchain(language: string, mainFileName: string): (r: Result<Toolchain, string>)
    ensures r.Ok? <==> Strings.ToLower(language) in SupportedKeys
    ensures r.Err? ==> r.error == "Error: Language '" + language + "' is not supported yet."
  {
    var key := Strings.ToLower(language);
    if key == "java" then
      Ok(Toolchain("eclipse-temurin:17-alpine", "javac *.java && java " + Strings.RemoveAll(mainFileName, ".java")))
    else if key == "python" then Ok(Toolchain("python:3.10-alpine", "python " + mainFileName))
    else if key == "cpp" || key == "c++" then Ok(Toolchain("gcc:latest", "g++ *.cpp -o main && ./main"))
    else if key == "javascript" then Ok(Toolchain("node:18-alpine", "node " + mainFileName))
    else if key == "typescript" then Ok(Toolchain("denoland/deno:alpine", "deno run " + mainFileName))
    else if key == "go" then Ok(Toolchain("golang:alpine", GoPrefix + mainFileName))
    else if key == "rust" then Ok(Toolchain("rust:alpine", "rustc " + mainFileName + " -o main && ./main"))
    else Err("Error: Language '" + language + "' is not supported yet.")
  }

  /** Dispatch depends only on the lower-cased name: two spellings with the
      same lower-case form select the same toolchain. */
  lemma DispatchIgnoresCase(a: string, b: string, mainFileName: string)
    requires Strings.ToLower(a) == Strings.ToLower(b)
    ensures SelectToolchain(a, mainFileName).Ok? == SelectToolchain(b, mainFileName).Ok?
    ensures SelectToolchain(a, mainFileName).Ok? ==>
      SelectToolchain(a, mainFileName).value == SelectToolchain(b, mainFileName).value
  {
  }

  /** "JAVA" and "Java" run as java. */
  lemma UpperCaseJava()
    ensures Strings.ToLower("JAVA") == "java" && Strings.ToLower("Java") == "java"
  {
  }

  /** Java compiles every source file and runs the main file's name with
      every ".java" removed. */
  lemma JavaToolchain(mainFileName: string)
    ensures SelectToolchain("java", mainFileName) ==
      Ok(Toolchain("eclipse-temurin:17-alpine", "javac *.java && java " + Strings.RemoveAll(mainFileName, ".java")))
  {
    Strings.LowerIdentity("java");
  }

  /** A main file `<name>.java` whose name holds no '.' runs class `<name>`;
      so the default "Main.java" runs class `Main`. */
  lemma JavaMainClass(name: string)
    requires forall i :: 0 <= i < |name| ==> name[i] != '.'
    ensures SelectToolchain("java", name + ".java") == Ok(Toolchain("eclipse-temurin:17-alpine", "javac *.java && java " + name))
  {
    JavaToolchain(name + ".java");
    Strings.RemoveTrailing(name, ".java");
  }

  /** The default main file "Main.java" runs class `Main`. */
  lemma DefaultJavaMain()
    ensures SelectToolchain("java", "Main.java") == Ok(Toolchain("eclipse-temurin:17-alpine", "javac *.java && java Main"))
  {
    var name := "Main";
    assert name + ".java" == "Main.java";
    assert "javac *.java && java " + name == "javac *.java && java Main";
    assert forall i :: 0 <= i < |name| ==> name[i] != '.';
    JavaMainClass(name);
  }

  /** "cpp" and "c++" are the same toolchain, whose command ignores the main
      file. */
  lemma CppIgnoresMainFile(m1: string, m2: string)
    ensures SelectToolchain("cpp", m1) == SelectToolchain("c++", m2)
    ensures SelectToolchain("cpp", m1) == Ok(Toolchain("gcc:latest", "g++ *.cpp -o main && ./main"))
  {
    Strings.LowerIdentity("cpp");
    Strings.LowerIdentity("c++");
  }

  /** python, javascript, typescript, go and rust run the main file by name,
      whatever the case of the language name. */
  lemma PythonRunsMainFile(language: string, m: string)
    requires Strings.ToLower(language) == "python"
    ensures SelectToolchain(language, m) == Ok(Toolchain("python:3.10-alpine", "python " + m))
  {
  }

  lemma JavaScriptRunsMainFile(language: string, m: string)
    requires Strings.ToLower(language) == "javascript"
    ensures SelectToolchain(language, m) == Ok(Toolchain("node:18-alpine", "node " + m))
  {
  }

  lemma TypeScriptRunsMainFile(language: string, m: string)
    requires Strings.ToLower(language) == "typescript"
    ensures SelectToolchain(language, m) == Ok(Toolchain("denoland/deno:alpine", "deno run " + m))
  {
  }

  lemma GoRunsMainFile(language: string, m: string)
    requires Strings.ToLower(language) == "go"
    ensures SelectToolchain(language, m) == Ok(Toolchain("golang:alpine", "GO111MODULE=off CGO_ENABLED=0 GOCACHE=/tmp go run " + m))
  {
  }

  lemma RustRunsMainFile(language: string, m: string)
    requires Strings.ToLower(language) == "rust"
    ensures SelectToolchain(language, m) == Ok(Toolchain("rust:alpine", "rustc " + m + " -o main && ./main"))
  {
  }

  // -----------------------------------------------------------------------
  // The docker command line

  /** `docker run --rm -i --network none --memory 256m -v <dir>:/app -w /app
      <image> sh -c <command>`. */
  function DockerArgv(hostDir: string, tc: Toolchain): (argv: seq<string>)
    ensures |argv| == 16
    ensures argv[..2] == ["docker", "run"]
    ensures argv[2..4] == ["--rm", "-i"]
    ensures argv[4..8] == ["--network", "none", "--memory", "256m"]
    ensures argv[8..10] == ["-v", hostDir + ":/app"] && argv[10..12] == ["-w", "/app"]
    ensures argv[12..] == [tc.image, "sh", "-c", tc.command]
  {
    var head := ["docker", "run", "--rm", "-i"];
    var limits := ["--network", "none", "--memory", "256m"];
    var mount := ["-v", hostDir + ":/app", "-w", "/app"];
    var command := [tc.image, "sh", "-c", tc.command];
    assert (head + limits + mount + command)[..8] == head + limits;
    assert (head + limits + mount + command)[12..] == command;
    assert (head + limits + mount + command)[8..12] == mount;
    head + limits + mount + command
  }

  // -----------------------------------------------------------------------
  // Standard input

  /** What is written to the container's standard input: nothing for a
      missing or empty input, otherwise the input with a newline appended
      unless it already ends with one. */
  function StdinText(input: Option<string>): (r: string)
    ensures input.None? || input == Some("") ==> r == ""
    ensures input.Some? && input.value != "" ==>
      && Strings.StartsWith(r, input.value)
      && Strings.EndsWith(r, "\n")
      && |r| - |input.value| == (if Strings.EndsWith(input.value, "\n") then 0 else 1)
  {
    match input
    case None => ""
    case Some(s) =>
      if s == "" then ""
      else if Strings.EndsWith(s, "\n") then s
      else
        Strings.StartsWithConcat(s, "\n");
        Strings.EndsWithConcat(s, "\n");
        s + "\n"
  }

  /** Normalising twice adds nothing: the text already ends with a newline. */
  lemma StdinTextIdempotent(input: string)
    ensures StdinText(Some(StdinText(Some(input)))) == StdinText(Some(input))
  {
  }

  // -----------------------------------------------------------------------
  // Reading a stream: `BufferedReader.lines()` joined with "\n"

  predicate IsBreak(c: char) {
    c == '\n' || c == '\r'
  }

  /** Index of the first line terminator, or |raw| when there is none. */
  function FirstBreak(raw: string): (i: nat)
    ensures i <= |raw|
    ensures forall k :: 0 <= k < i ==> !IsBreak(raw[k])
    ensures i < |raw| ==> IsBreak(raw[i])
  {
    if raw == [] then 0
    else if IsBreak(raw[0]) then 0
    else 1 + FirstBreak(raw[1..])
  }

  /** The lines `readLine` returns: each ends at "\n", "\r" or "\r\n"
      (the terminator dropped), and a final unterminated line counts. */
  function Lines(raw: string): seq<string>
    decreases |raw|
  {
    if raw == [] then []
    else
      var i := FirstBreak(raw);
      if i == |raw| then [raw]
      else
        var next := if raw[i] == '\r' && i + 1 < |raw| && raw[i + 1] == '\n' then i + 2 else i + 1;
        [raw[..i]] + Lines(raw[next..])
  }

  function JoinLines(lines: seq<string>): string {
    if lines == [] then ""
    else if |lines| == 1 then lines[0]
    else lines[0] + "\n" + JoinLines(lines[1..])
  }

  function ReadStream(raw: string): string {
    JoinLines(Lines(raw))
  }

  lemma JoinLinesCons(first: string, rest: seq<string>)
    requires rest != []
    ensures JoinLines([first] + rest) == first + "\n" + JoinLines(rest)
  {
    assert ([first] + rest)[1..] == rest;
  }

  /** A "\n" at the first terminator ends the first line. */
  lemma LinesAtNewline(raw: string)
    requires FirstBreak(raw) < |raw| && raw[FirstBreak(raw)] == '\n'
    ensures Lines(raw) == [raw[..FirstBreak(raw)]] + Lines(raw[FirstBreak(raw) + 1..])
    ensures raw[FirstBreak(raw) + 1..] != [] ==> Lines(raw[FirstBreak(raw) + 1..]) != []
  {
    assert raw[FirstBreak(raw)] != '\r';
    LinesNonEmpty(raw[FirstBreak(raw) + 1..]);
  }

  lemma LinesNonEmpty(raw: string)
    ensures raw != [] ==> |Lines(raw)| >= 1
  {
  }

  /** Ending with "\n" is decided by the last character. */
  lemma EndsWithNewline(s: string)
    requires s != []
    ensures Strings.EndsWith(s, "\n") <==> s[|s| - 1] == '\n'
  {
    assert s[|s| - 1..] == [s[|s| - 1]];
  }

  predicate NoCarriageReturn(raw: string) {
    forall k :: 0 <= k < |raw| ==> raw[k] != '\r'
  }

  /** Text with no line terminator is one line. */
  lemma ReadStreamOneLine(raw: string)
    requires raw != [] && FirstBreak(raw) == |raw|
    ensures ReadStream(raw) == raw
  {
    assert Lines(raw) == [raw];
  }

  /** The step case: the first line, a "\n", then what the rest reads as. */
  lemma ReadStreamNewline(raw: string)
    requires FirstBreak(raw) < |raw| - 1 && raw[FirstBreak(raw)] == '\n'
    ensures ReadStream(raw) == raw[..FirstBreak(raw)] + "\n" + ReadStream(raw[FirstBreak(raw) + 1..])
  {
    LinesAtNewline(raw);
    JoinLinesCons(raw[..FirstBreak(raw)], Lines(raw[FirstBreak(raw) + 1..]));
  }

  /** Cutting at a "\n" and gluing back, with or without the last character. */
  lemma Reassemble(raw: string, i: nat)
    requires i < |raw| - 1 && raw[i] == '\n'
    ensures raw[..i] + "\n" + raw[i + 1..] == raw
    ensures raw[..i] + "\n" + raw[i + 1..][..|raw| - i - 2] == raw[..|raw| - 1]
    ensures raw[|raw| - 1] == raw[i + 1..][|raw| - i - 2]
  {
  }

  /** For text with "\n" line ends only, reading gives the text back minus
      one trailing newline. */
  lemma {:induction false} ReadStreamUnixText(raw: string)
    requires NoCarriageReturn(raw)
    ensures ReadStream(raw) == if Strings.EndsWith(raw, "\n") then raw[..|raw| - 1] else raw
    decreases |raw|
  {
    if raw != [] {
      EndsWithNewline(raw);
      var i := FirstBreak(raw);
      if i == |raw| {
        ReadStreamOneLine(raw);
      } else if i == |raw| - 1 {
        LinesAtNewline(raw);
        assert raw[i + 1..] == [];
        assert Lines(raw) == [raw[..i]];
      } else {
        var rest := raw[i + 1..];
        assert NoCarriageReturn(rest) by {
          forall k | 0 <= k < |rest| ensures rest[k] != '\r' {
            assert rest[k] == raw[i + 1 + k];
          }
        }
        ReadStreamNewline(raw);
        ReadStreamUnixText(rest);
        EndsWithNewline(rest);
        Reassemble(raw, i);
      }
    }
  }

  // -----------------------------------------------------------------------
  // Output

  const ErrorSeparator := "\nError Output:\n"

  /** The result text: standard output alone when standard error is empty,
      otherwise both, separated by the "Error Output" banner. */
  function CombineOutput(output: string, error: string): (r: string)
    ensures error == "" ==> r == output
    ensures error != "" ==> Strings.StartsWith(r, output) && r[|output|..] == ErrorSeparator + error
  {
    if error == "" then output else output + ErrorSeparator + error
  }

  /** The offset of the first "Error Output" banner in `r`, if any. */
  function BannerAt(r: string): (k: Option<nat>)
    ensures k.Some? ==> Strings.OccursAt(r, ErrorSeparator, k.value)
    ensures k.Some? ==> forall j :: 0 <= j < k.value ==> !Strings.OccursAt(r, ErrorSeparator, j)
    ensures k.None? ==> forall j :: 0 <= j ==> !Strings.OccursAt(r, ErrorSeparator, j)
    decreases |r|
  {
    if |r| < |ErrorSeparator| then None
    else if r[..|ErrorSeparator|] == ErrorSeparator then Some(0)
    else
      var rest := BannerAt(r[1..]);
      forall j | 0 <= j && Strings.OccursAt(r, ErrorSeparator, j) && j > 0
        ensures Strings.OccursAt(r[1..], ErrorSeparator, j - 1)
      {
        assert r[1..][j - 1..j - 1 + |ErrorSeparator|] == r[j..j + |ErrorSeparator|];
      }
      match rest
      case None => None
      case Some(i) =>
        assert r[1..][i..i + |ErrorSeparator|] == r[i + 1..i + 1 + |ErrorSeparator|];
        Some(i + 1)
  }

  lemma BannerStartsWithNewline(r: string, j: int)
    ensures Strings.OccursAt(r, ErrorSeparator, j) ==> r[j] == '\n'
  {
    if Strings.OccursAt(r, ErrorSeparator, j) {
      assert r[j] == r[j..j + |ErrorSeparator|][0];
    }
  }

  /** A reader's split of the combined text: everything before the first
      banner, and everything after it ("" when there is no banner). */
  function SplitCombined(r: string): (string, string) {
    match BannerAt(r)
    case None => (r, "")
    case Some(k) => (r[..k], r[k + |ErrorSeparator|..])
  }

  /** Splitting at the first banner undoes the combination whenever standard
      output is a single line: the banner starts with a newline, so it
      cannot begin inside such an output. Multi-line output can hold the
      banner text itself, and then the split comes too early. */
  lemma CombineThenSplit(output: string, error: string)
    requires '\n' !in output
    ensures SplitCombined(CombineOutput(output, error)) == (output, error)
  {
    var r := CombineOutput(output, error);
    forall j | 0 <= j < |output|
      ensures !Strings.OccursAt(r, ErrorSeparator, j)
    {
      BannerStartsWithNewline(r, j);
      assert r[j] == output[j];
      assert output[j] in output;
    }
    if error == "" {
      assert r == output;
      assert BannerAt(r).None?;
    } else {
      assert r == output + ErrorSeparator + error;
      assert r[|output|..|output| + |ErrorSeparator|] == ErrorSeparator;
      assert Strings.OccursAt(r, ErrorSeparator, |output|);
      var k := BannerAt(r).value;
      assert k == |output|;
      assert r[..k] == output;
      assert r[k + |ErrorSeparator|..] == error;
    }
  }

  /** An occurrence with none before it is the one `BannerAt` finds. */
  lemma FirstBanner(r: string, k: nat)
    requires Strings.OccursAt(r, ErrorSeparator, k)
    requires forall j :: 0 <= j < k ==> !Strings.OccursAt(r, ErrorSeparator, j)
    ensures BannerAt(r) == Some(k)
  {
  }

  /** The single-line hypothesis is needed: when standard output is a line
      `x` followed by a second line holding the banner's text, the split
      stops after `x` and standard error is misread. For example, output
      "x\nError Output:" with error "boom" splits as "x". */
  lemma MultiLineOutputSplitsEarly(x: string, error: string)
    requires '\n' !in x && error != ""
    ensures var output := x + ErrorSeparator[..|ErrorSeparator| - 1];
      SplitCombined(CombineOutput(output, error)).0 == x
  {
    var sep := ErrorSeparator;
    var head := sep[..|sep| - 1];
    var r := CombineOutput(x + head, error);
    assert r == x + (head + sep) + error;
    assert (head + sep)[..|sep|] == sep by {
      assert (head + sep)[..|sep|] == head + [sep[0]];
      assert sep[0] == sep[|sep| - 1];
      assert sep == head + [sep[|sep| - 1]];
    }
    assert r[|x|..|x| + |sep|] == (head + sep)[..|sep|];
    forall j | 0 <= j < |x|
      ensures !Strings.OccursAt(r, sep, j)
    {
      BannerStartsWithNewline(r, j);
      assert r[j] == x[j];
      assert x[j] in x;
    }
    FirstBanner(r, |x|);
    assert r[..|x|] == x;
  }

  // -----------------------------------------------------------------------
  // The whole of executeCode

  /** How the launched process ended: an exception while starting or
      feeding it, the 20-second timeout, or normal completion with the raw
      bytes of its two streams. */
  datatype ProcessOutcome = Crashed(message: string) | TimedOut | Finished(stdout: string, stderr: string)

  /** What the host supplies: whether creating the temporary directory or
      writing the files failed, its absolute path, and the process outcome. */
  datatype Environment = Environment(setupFailure: Option<string>, hostDir: string, process: ProcessOutcome)

  /** The container launched: its argument list, its standard input, and the
      files placed in its working directory. */
  datatype Launch = Launch(argv: seq<string>, stdin: string, files: map<string, string>)

  datatype Execution = Execution(launch: Option<Launch>, result: string)

  const TimeoutText := "Timeout Error: Execution exceeded 20 seconds. Check for infinite loops or Docker image pulling!"

  /** `executeCode`: the `code` argument is not used; only `files` reach the
      container. */
  function ExecuteCode(language: string, code: Option<string>, input: Option<string>, mainFileName: string,
                       files: Option<map<string, string>>, env: Environment): (e: Execution)
    ensures env.setupFailure.Some? ==> e == Execution(None, "Sandbox Error: " + env.setupFailure.value)
    ensures env.setupFailure.None? && Strings.ToLower(language) !in SupportedKeys ==>
      e == Execution(None, "Error: Language '" + language + "' is not supported yet.")
    ensures e.launch.Some? <==> env.setupFailure.None? && Strings.ToLower(language) in SupportedKeys
    ensures e.launch.Some? ==>
      && e.launch.value.argv == DockerArgv(env.hostDir, SelectToolchain(language, mainFileName).value)
      && |e.launch.value.argv| == 16
      && e.launch.value.argv[4..8] == ["--network", "none", "--memory", "256m"]
      && e.launch.value.argv[12..] == [SelectToolchain(language, mainFileName).value.image, "sh", "-c",
                                        SelectToolchain(language, mainFileName).value.command]
      && e.launch.value.stdin == StdinText(input)
      && (files.None? ==> e.launch.value.files == map[])
      && (files.Some? ==> e.launch.value.files == files.value)
    ensures e.launch.Some? && env.process.Crashed? ==> e.result == "Sandbox Error: " + env.process.message
    ensures e.launch.Some? && env.process.TimedOut? ==> e.result == TimeoutText
    ensures e.launch.Some? && env.process.Finished? ==>
      e.result == CombineOutput(ReadStream(env.process.stdout), ReadStream(env.process.stderr))
    ensures e.launch.Some? && env.process.Finished? && env.process.stderr == "" ==>
      e.result == ReadStream(env.process.stdout)
  {
    if env.setupFailure.Some? then Execution(None, "Sandbox Error: " + env.setupFailure.value)
    else
      match SelectToolchain(language, mainFileName)
      case Err(message) => Execution(None, message)
      case Ok(tc) =>
        var launch := Launch(DockerArgv(env.hostDir, tc), StdinText(input), files.GetOr(map[]));
        var result := match env.process
          case Crashed(m) => "Sandbox Error: " + m
          case TimedOut => TimeoutText
          case Finished(out, err) => CombineOutput(ReadStream(out), ReadStream(err));
        Execution(Some(launch), result)
  }
}

=== FILE: strings.dfy ===
/** String helpers shared by the backend and frontend models: prefix and
    suffix tests, substring search, ASCII lower-casing, literal removal
    (Java's `String.replace(target, "")`) and decimal rendering of integers
    (Java's `Long.toString`, JavaScript's template-literal number output). */
module Strings {

  predicate StartsWith(s: string, prefix: string) {
    |prefix| <= |s| && s[..|prefix|] == prefix
  }

  predicate EndsWith(s: string, suffix: string) {
    |suffix| <= |s| && s[|s| - |suffix|..] == suffix
  }

  /** `part` occurs in `s` at offset `i`. */
  predicate OccursAt(s: string, part: string, i: int) {
    0 <= i && i + |part| <= |s| && s[i..i + |part|] == part
  }

  /** Java's `String.contains` / JavaScript's `String.prototype.includes`. */
  predicate Contains(s: string, part: string) {
    exists i | 0 <= i <= |s| - |part| :: OccursAt(s, part, i)
  }

  lemma EndsWithConcat(s: string, suffix: string)
    ensures EndsWith(s + suffix, suffix)
  {
    assert (s + suffix)[|s|..] == suffix;
  }

  lemma StartsWithConcat(s: string, t: string)
    ensures StartsWith(s + t, s)
  {
    assert (s + t)[..|s|] == s;
  }

  // ---------------------------------------------------------------------
  // Lower-casing

  function LowerChar(c: char): char {
    if 'A' <= c <= 'Z' then (c as int + 32) as char else c
  }

  /** `String.toLowerCase()` restricted to the ASCII letters. */
  function ToLower(s: string): (r: string)
    ensures |r| == |s|
    ensures forall i :: 0 <= i < |s| ==> r[i] == LowerChar(s[i])
  {
    if s == [] then [] else [LowerChar(s[0])] + ToLower(s[1..])
  }

  predicate IsLower(s: string) {
    forall i :: 0 <= i < |s| ==> !('A' <= s[i] <= 'Z')
  }

  /** Lower-casing leaves no upper-case letter and is idempotent, and a
      lower-case string is its own lower-case form. */
  lemma ToLowerNormalises(s: string)
    ensures IsLower(ToLower(s))
    ensures ToLower(ToLower(s)) == ToLower(s)
    ensures IsLower(s) ==> ToLower(s) == s
  {
  }

  lemma LowerIdentity(s: string)
    requires IsLower(s)
    ensures ToLower(s) == s
  {
  }

  // ---------------------------------------------------------------------
  // Literal removal

  /** Every left-to-right, non-overlapping occurrence of `pat` deleted, the
      scan resuming after each deleted occurrence, as Java's
      `String.replace(pat, "")` does. */
  function RemoveAll(s: string, pat: string): (r: string)
    requires |pat| > 0
    ensures |r| <= |s|
    ensures !Contains(s, pat) ==> r == s
    decreases |s|
  {
    if |s| < |pat| then s
    else if s[..|pat|] == pat then
      assert OccursAt(s, pat, 0);
      RemoveAll(s[|pat|..], pat)
    else
      var rest := RemoveAll(s[1..], pat);
      ContainsTail(s, pat);
      [s[0]] + rest
  }

  /** An occurrence in the tail of `s` is an occurrence in `s`. */
  lemma ContainsTail(s: string, pat: string)
    requires |s| > 0
    ensures Contains(s[1..], pat) ==> Contains(s, pat)
  {
    if Contains(s[1..], pat) {
      var i :| 0 <= i <= |s[1..]| - |pat| && OccursAt(s[1..], pat, i);
      assert s[i + 1..i + 1 + |pat|] == s[1..][i..i + |pat|];
      assert OccursAt(s, pat, i + 1);
    }
  }

  /** A name free of `c`, followed by a pattern that begins with `c`, loses
      exactly that trailing pattern. */
  lemma {:induction false} RemoveTrailing(name: string, pat: string)
    requires |pat| > 0
    requires forall i :: 0 <= i < |name| ==> name[i] != pat[0]
    ensures RemoveAll(name + pat, pat) == name
    decreases |name|
  {
    var s := name + pat;
    if name == [] {
      assert s == pat;
      assert s[|pat|..] == [];
    } else {
      assert s[0] == name[0] != pat[0];
      assert s[..|pat|] != pat by { assert s[..|pat|][0] == s[0]; }
      assert s[1..] == name[1..] + pat;
      RemoveTrailing(name[1..], pat);
      assert s == [name[0]] + (name[1..] + pat);
    }
  }

  // ---------------------------------------------------------------------
  // Decimal rendering

  function DigitChar(d: int): char
    requires 0 <= d < 10
  {
    ('0' as int + d) as char
  }

  predicate IsDigit(c: char) {
    '0' <= c <= '9'
  }

  function DigitValue(c: char): int
    requires IsDigit(c)
  {
    c as int - '0' as int
  }

  /** Decimal digits of `n`, most significant first, without leading zeros. */
  function NatToString(n: nat): (r: string)
    ensures |r| > 0
    ensures forall i :: 0 <= i < |r| ==> IsDigit(r[i])
    ensures r[0] == '0' ==> n == 0
    decreases n
  {
    if n < 10 then [DigitChar(n)] else NatToString(n / 10) + [DigitChar(n % 10)]
  }

  /** `Long.toString` / JavaScript `${n}`: a minus sign for negative numbers. */
  function IntToString(n: int): string {
    if n < 0 then "-" + NatToString(-n) else NatToString(n)
  }

  /** The value of a string of decimal digits. */
  function ParseNat(s: string): nat
    requires forall i :: 0 <= i < |s| ==> IsDigit(s[i])
  {
    if s == [] then 0 else ParseNat(s[..|s| - 1]) * 10 + DigitValue(s[|s| - 1])
  }

  function ParseInt(s: string): int
    requires |s| > 0
    requires s[0] == '-' ==> forall i :: 1 <= i < |s| ==> IsDigit(s[i])
    requires s[0] != '-' ==> forall i :: 0 <= i < |s| ==> IsDigit(s[i])
  {
    if s[0] == '-' then -(ParseNat(s[1..]) as int) else ParseNat(s)
  }

  lemma {:induction false} NatToStringRoundTrip(n: nat)
    ensures ParseNat(NatToString(n)) == n
    decreases n
  {
    if n >= 10 {
      var r := NatToString(n);
      NatToStringRoundTrip(n / 10);
      assert r[..|r| - 1] == NatToString(n / 10);
    }
  }

  /** Rendering is injective: parsing the rendered text gives the number back. */
  lemma IntToStringRoundTrip(n: int)
    ensures var r := IntToString(n);
      |r| > 0 &&
      (r[0] == '-' <==> n < 0) &&
      (r[0] == '-' ==> forall i :: 1 <= i < |r| ==> IsDigit(r[i])) &&
      (r[0] != '-' ==> forall i :: 0 <= i < |r| ==> IsDigit(r[i])) &&
      ParseInt(r) == n
  {
    var r := IntToString(n);
    if n < 0 {
      NatToStringRoundTrip(-n);
      assert r[1..] == NatToString(-n);
    } else {
      NatToStringRoundTrip(n);
    }
  }
}

=== FILE: sync_roundtrip.dfy ===
/** The editor client and the server's room handlers together: what one
    client publishes, the server relays or answers on the room topic that
    every client of the room subscribed to, and how the clients react. The
    STOMP broker is the identity here: a broadcast on a topic arrives
    unchanged at each subscriber. */
module SyncRoundTrip {
  import opened Wrappers
  import opened Messages
  import EditorClient
  import RoomRoster

  /** `listed` is a list of exactly the names in `members`, each once. */
  predicate Lists(listed: seq<string>, members: set<string>) {
    && (forall i :: 0 <= i < |listed| ==> listed[i] in members)
    && (forall name :: name in members ==> name in listed)
    && (forall i, j :: 0 <= i < j < |listed| ==> listed[i] != listed[j])
  }

  /** The client-side body of a server roster broadcast, its set listed. */
  function Received(m: RoomRoster.RosterMessage, listed: seq<string>): EditorClient.UsersBody
    requires Lists(listed, m.activeUsers)
  {
    EditorClient.UsersBody(m.kind, m.username, listed)
  }

  /** One edit travels the room: the writer publishes one CODE message; the
      server relays it unchanged on the code topic the other client
      subscribed to; that client installs the new code; the writer's own
      echo only clears its flag, leaving the edit in place. Both end with
      the same code and the flag down. */
  lemma EditReachesRoom(r: RoomRoster.Roster, writer: EditorClient.State, reader: EditorClient.State, value: string)
    requires writer.link == EditorClient.Open && reader.link == EditorClient.Open
    requires writer.roomId == reader.roomId && !reader.localChange
    ensures var sent := EditorClient.Step(writer, EditorClient.EditorChange(value));
      var m := CodeMessage(writer.username, value, writer.language, CodeKind);
      && sent.out == [EditorClient.Send(EditorClient.CodeDestination(writer.roomId), EditorClient.Code(m))]
      && var relayed := RoomRoster.Relay(r, writer.roomId, RoomRoster.CodePayload(m));
      && relayed.roster == r
      && relayed.out == [RoomRoster.Broadcast(EditorClient.CodeTopic(reader.roomId), RoomRoster.CodePayload(m))]
      && var echo := EditorClient.Step(sent.next, EditorClient.CodeArrived(m)).next;
      && var seen := EditorClient.Step(reader, EditorClient.CodeArrived(m)).next;
      && echo.code == value && !echo.localChange && echo.language == writer.language
      && seen.code == value && !seen.localChange
  {
    var m := CodeMessage(writer.username, value, writer.language, CodeKind);
    EditorClient.EditorChangeRule(writer, value);
    RoomRoster.RelayForwardsUnchanged(r, writer.roomId, RoomRoster.CodePayload(m));
  }

  /** The language carried by an edit reaches the reader only when it
      differs from the language the reader's subscription captured: a reader
      that connected while the writer's language was current keeps its own
      language, even if it has changed it since. */
  lemma LanguageFollowsCapturedValue(reader: EditorClient.State, m: CodeMessage)
    requires reader.link == EditorClient.Open && !reader.localChange
    requires m.language == reader.closureLanguage
    ensures EditorClient.Step(reader, EditorClient.CodeArrived(m)).next.language == reader.language
  {
  }

  /** The server's JOIN reaches the joining client as its own join: it
      takes the room's whole roster, shows no "joined" notice for itself,
      and the roster it shows holds exactly the room's users. */
  lemma JoinRoundTrip(r: RoomRoster.Roster, session: RoomRoster.Session, s: EditorClient.State,
                      listed: seq<string>)
    requires s.link == EditorClient.Open
    requires var o := RoomRoster.Join(r, session, s.roomId, s.username);
      Lists(listed, o.roster[s.roomId])
    ensures var o := RoomRoster.Join(r, session, s.roomId, s.username);
      var t := EditorClient.Step(s, EditorClient.UsersArrived(EditorClient.UsersBody(JoinKind, s.username, listed)));
      && o.out[0].payload.roster.kind == JoinKind
      && o.out[0].payload.roster.username == s.username
      && o.out[0].topic == EditorClient.UsersTopic(s.roomId)
      && t.out == []
      && Lists(t.next.users, RoomRoster.Members(r, s.roomId) + {s.username})
  {
    EditorClient.UsersArrivedRule(s, EditorClient.UsersBody(JoinKind, s.username, listed));
  }

  /** Another user's JOIN shows one "joined" notice keyed by that user, and
      the shown roster now includes them. */
  lemma OtherJoinNotified(r: RoomRoster.Roster, session: RoomRoster.Session, s: EditorClient.State,
                          other: string, listed: seq<string>)
    requires s.link == EditorClient.Open && other != s.username
    requires var o := RoomRoster.Join(r, session, s.roomId, other);
      Lists(listed, o.roster[s.roomId])
    ensures var t := EditorClient.Step(s, EditorClient.UsersArrived(EditorClient.UsersBody(JoinKind, other, listed)));
      && t.out == [EditorClient.Notice(EditorClient.Success, other + " joined", Some("join-" + other))]
      && other in t.next.users
  {
    EditorClient.UsersArrivedRule(s, EditorClient.UsersBody(JoinKind, other, listed));
    assert other in RoomRoster.Join(r, session, s.roomId, other).roster[s.roomId];
  }

  /** A client that leaves is announced to the rest of the room with a
      "left" notice, and the roster shown no longer holds it. */
  lemma LeaveRoundTrip(r: RoomRoster.Roster, s: EditorClient.State, leaver: string, listed: seq<string>)
    requires s.link == EditorClient.Open
    requires s.roomId in r && leaver in r[s.roomId]
    requires Lists(listed, r[s.roomId] - {leaver})
    ensures var o := RoomRoster.Leave(r, s.roomId, leaver);
      var t := EditorClient.Step(s, EditorClient.UsersArrived(EditorClient.UsersBody(LeaveKind, leaver, listed)));
      && |o.out| == 1 && o.out[0].payload.roster.activeUsers == r[s.roomId] - {leaver}
      && t.out == [EditorClient.Notice(EditorClient.Plain, leaver + " left", Some("leave-" + leaver))]
      && leaver !in t.next.users
  {
    EditorClient.UsersArrivedRule(s, EditorClient.UsersBody(LeaveKind, leaver, listed));
  }
}

=== FILE: workspace.dfy ===
/** `WorkspaceService`: saving a room's files, loading them, deleting a
    room, and the file-name suffix that picks a stored file's language. The
    JPA repositories become three in-memory tables: the users (searched as
    the account rules search them), the rooms by id, and the files by
    (room id, file name). */
module Workspace {
  import Strings
  import Accounts

  /** A room id (a UUID in the service), kept abstract as its text. */
  type RoomId = string

  /** `new Room(roomName, user, false)`: the host is recorded by username. */
  datatype Room = Room(name: string, host: string, isPublic: bool)

  datatype StoredFile = StoredFile(content: string, language: string)

  /** `findByRoomIdAndFileName` names at most one file: the table is keyed
      by the pair. */
  type FileKey = (RoomId, string)

  type FileTable = map<FileKey, StoredFile>

  datatype Db = Db(users: Accounts.UserStore, rooms: map<RoomId, Room>, files: FileTable)

  // -----------------------------------------------------------------------
  // Languages by suffix

  /** `determineLanguage`: the first matching suffix decides. */
  function DetermineLanguage(fileName: string): (lang: string)
    ensures lang == "java" <==> Strings.EndsWith(fileName, ".java")
    ensures lang == "python" <==> Strings.EndsWith(fileName, ".py")
    ensures lang == "cpp" <==> Strings.EndsWith(fileName, ".cpp")
    ensures lang == "javascript" <==> Strings.EndsWith(fileName, ".js")
    ensures lang == "go" <==> Strings.EndsWith(fileName, ".go")
    ensures lang == "plaintext" <==>
      && !Strings.EndsWith(fileName, ".java") && !Strings.EndsWith(fileName, ".py")
      && !Strings.EndsWith(fileName, ".cpp") && !Strings.EndsWith(fileName, ".js")
      && !Strings.EndsWith(fileName, ".go")
  {
    SuffixLastChars(fileName);
    if Strings.EndsWith(fileName, ".java") then "java"
    else if Strings.EndsWith(fileName, ".py") then "python"
    else if Strings.EndsWith(fileName, ".cpp") then "cpp"
    else if Strings.EndsWith(fileName, ".js") then "javascript"
    else if Strings.EndsWith(fileName, ".go") then "go"
    else "plaintext"
  }

  /** The known suffixes end in five different characters, so a name ends
      with at most one of them. */
  lemma SuffixLastChars(s: string)
    ensures Strings.EndsWith(s, ".java") ==> s != [] && s[|s| - 1] == 'a'
    ensures Strings.EndsWith(s, ".py") ==> s != [] && s[|s| - 1] == 'y'
    ensures Strings.EndsWith(s, ".cpp") ==> s != [] && s[|s| - 1] == 'p'
    ensures Strings.EndsWith(s, ".js") ==> s != [] && s[|s| - 1] == 's'
    ensures Strings.EndsWith(s, ".go") ==> s != [] && s[|s| - 1] == 'o'
  {
    if Strings.EndsWith(s, ".java") { LastChar(s, ".java"); }
    if Strings.EndsWith(s, ".py") { LastChar(s, ".py"); }
    if Strings.EndsWith(s, ".cpp") { LastChar(s, ".cpp"); }
    if Strings.EndsWith(s, ".js") { LastChar(s, ".js"); }
    if Strings.EndsWith(s, ".go") { LastChar(s, ".go"); }
  }

  lemma LastChar(s: string, suffix: string)
    requires suffix != [] && Strings.EndsWith(s, suffix)
    ensures s != [] && s[|s| - 1] == suffix[|suffix| - 1]
  {
    assert s[|s| - |suffix|..][|suffix| - 1] == s[|s| - 1];
  }

  /** Appending a known suffix to any stem names that language; a
      TypeScript file is stored as plain text. */
  lemma LanguageOfSuffix(stem: string)
    ensures DetermineLanguage(stem + ".java") == "java"
    ensures DetermineLanguage(stem + ".py") == "python"
    ensures DetermineLanguage(stem + ".cpp") == "cpp"
    ensures DetermineLanguage(stem + ".js") == "javascript"
    ensures DetermineLanguage(stem + ".go") == "go"
    ensures DetermineLanguage(stem + ".ts") == "plaintext"
  {
    Strings.EndsWithConcat(stem, ".java");
    Strings.EndsWithConcat(stem, ".py");
    Strings.EndsWithConcat(stem, ".cpp");
    Strings.EndsWithConcat(stem, ".js");
    Strings.EndsWithConcat(stem, ".go");
    var t := stem + ".ts";
    assert t[|t| - 3..] == ".ts";
    SuffixLastChars(t);
  }

  // -----------------------------------------------------------------------
  // Saving

  const UserNotFoundReply := "Error: User not found!"
  const SavedReply := "Workspace saved successfully!"

  /** One entry of the save loop: an existing file gets the new content and
      keeps its language; a new file gets the language of its suffix. */
  function Upsert(files: FileTable, roomId: RoomId, name: string, content: string): (r: FileTable)
    ensures r.Keys == files.Keys + {(roomId, name)}
    ensures forall k :: k in files && k != (roomId, name) ==> r[k] == files[k]
    ensures r[(roomId, name)].content == content
    ensures r[(roomId, name)].language ==
      if (roomId, name) in files then files[(roomId, name)].language else DetermineLanguage(name)
  {
    var key := (roomId, name);
    if key in files then files[key := files[key].(content := content)]
    else files[key := StoredFile(content, DetermineLanguage(name))]
  }

  /** The keys a save request touches. */
  function RequestKeys(roomId: RoomId, req: map<string, string>): (keys: set<FileKey>)
    ensures forall k :: k in keys <==> k.0 == roomId && k.1 in req
  {
    set name | name in req :: (roomId, name)
  }

  /** What one key holds after a save. */
  function SavedEntry(files: FileTable, roomId: RoomId, req: map<string, string>, k: FileKey): StoredFile
    requires k in files || (k.0 == roomId && k.1 in req)
  {
    if k.0 == roomId && k.1 in req then
      StoredFile(req[k.1], if k in files then files[k].language else DetermineLanguage(k.1))
    else files[k]
  }

  /** The file table after a save, all entries at once: every requested
      name holds its new content, keeping the stored language when the file
      existed, and every other file is as it was. */
  function SavedFiles(files: FileTable, roomId: RoomId, req: map<string, string>): (r: FileTable)
    ensures r.Keys == files.Keys + RequestKeys(roomId, req)
    ensures forall k :: k in r ==> r[k] == SavedEntry(files, roomId, req, k)
  {
    map k | k in files.Keys + RequestKeys(roomId, req) :: SavedEntry(files, roomId, req, k)
  }

  /** An empty request changes no file. */
  lemma SaveNothing(files: FileTable, roomId: RoomId)
    ensures SavedFiles(files, roomId, map[]) == files
  {
  }

  /** Handling one more entry extends the all-at-once table by that entry. */
  lemma UpsertExtends(files: FileTable, roomId: RoomId, req: map<string, string>, name: string, content: string)
    requires name !in req
    ensures Upsert(SavedFiles(files, roomId, req), roomId, name, content) == SavedFiles(files, roomId, req[name := content])
  {
    var mid := SavedFiles(files, roomId, req);
    var lhs := Upsert(mid, roomId, name, content);
    var rhs := SavedFiles(files, roomId, req[name := content]);
    assert lhs.Keys == rhs.Keys;
    forall k | k in lhs ensures lhs[k] == rhs[k] {
      if k == (roomId, name) {
        assert k !in mid ==> k !in files;
      } else {
        assert lhs[k] == mid[k];
      }
    }
  }

  function SaveInOrder(files: FileTable, roomId: RoomId, req: map<string, string>, names: seq<string>): FileTable
    requires forall i :: 0 <= i < |names| ==> names[i] in req
    decreases |names|
  {
    if names == [] then files
    else Upsert(SaveInOrder(files, roomId, req, names[..|names| - 1]), roomId, names[|names| - 1], req[names[|names| - 1]])
  }

  function Prefix(req: map<string, string>, names: seq<string>): map<string, string>
    requires forall i :: 0 <= i < |names| ==> names[i] in req
  {
    map n | n in req && n in names :: req[n]
  }

  lemma {:induction false} SaveInOrderIsSaved(files: FileTable, roomId: RoomId, req: map<string, string>, names: seq<string>)
    requires forall i :: 0 <= i < |names| ==> names[i] in req
    requires forall i, j :: 0 <= i < j < |names| ==> names[i] != names[j]
    ensures SaveInOrder(files, roomId, req, names) == SavedFiles(files, roomId, Prefix(req, names))
    decreases |names|
  {
    if names == [] {
      assert Prefix(req, names) == map[];
      SaveNothing(files, roomId);
    } else {
      var init := names[..|names| - 1];
      var last := names[|names| - 1];
      SaveInOrderIsSaved(files, roomId, req, init);
      assert last !in Prefix(req, init);
      assert Prefix(req, init)[last := req[last]] == Prefix(req, names);
      UpsertExtends(files, roomId, Prefix(req, init), last, req[last]);
    }
  }

  /** `order` lists every name of the request exactly once, as iterating
      the request's entry set does. */
  predicate Enumerates(order: seq<string>, req: map<string, string>) {
    && (forall i :: 0 <= i < |order| ==> order[i] in req)
    && (forall i, j :: 0 <= i < j < |order| ==> order[i] != order[j])
    && (forall name :: name in req ==> name in order)
  }

  /** Saving one more name of the enumeration upserts its entry. */
  lemma SaveInOrderStep(files: FileTable, roomId: RoomId, req: map<string, string>, order: seq<string>, i: nat)
    requires forall k :: 0 <= k < |order| ==> order[k] in req
    requires i < |order|
    ensures SaveInOrder(files, roomId, req, order[..i + 1]) ==
      Upsert(SaveInOrder(files, roomId, req, order[..i]), roomId, order[i], req[order[i]])
  {
    assert order[..i + 1][..i] == order[..i];
  }

  /** The service's loop over the request's entries; whatever the order,
      the result is the all-at-once table. */
  method SaveEntries(files: FileTable, roomId: RoomId, req: map<string, string>, order: seq<string>)
    returns (out: FileTable)
    requires Enumerates(order, req)
    ensures out == SavedFiles(files, roomId, req)
  {
    out := files;
    var i := 0;
    while i < |order|
      invariant 0 <= i <= |order|
      invariant out == SaveInOrder(files, roomId, req, order[..i])
    {
      SaveInOrderStep(files, roomId, req, order, i);
      out := Upsert(out, roomId, order[i], req[order[i]]);
      i := i + 1;
    }
    assert order[..i] == order;
    SaveAnyOrder(files, roomId, req, order);
  }

  /** The order of the entries does not matter: saving them one after
      another in any enumeration gives the all-at-once table. */
  lemma SaveAnyOrder(files: FileTable, roomId: RoomId, req: map<string, string>, order: seq<string>)
    requires Enumerates(order, req)
    ensures SaveInOrder(files, roomId, req, order) == SavedFiles(files, roomId, req)
  {
    SaveInOrderIsSaved(files, roomId, req, order);
    assert Prefix(req, order) == req;
  }

  /** `saveWorkspace`: an unknown user changes nothing; otherwise the room is
      created (named, hosted by the user, not public) only when absent, and
      the files are saved. */
  function SaveWorkspace(db: Db, roomId: RoomId, username: string, roomName: string,
                         req: map<string, string>): (r: (Db, string))
    ensures !Accounts.Taken(db.users, Accounts.UsernameColumn, username) ==> r == (db, UserNotFoundReply)
    ensures Accounts.Taken(db.users, Accounts.UsernameColumn, username) ==>
      && r.1 == SavedReply
      && r.0.users == db.users
      && (roomId in db.rooms ==> r.0.rooms == db.rooms)
      && (roomId !in db.rooms ==> r.0.rooms == db.rooms[roomId := Room(roomName, username, false)])
      && r.0.files == SavedFiles(db.files, roomId, req)
  {
    if Accounts.Find(db.users, Accounts.UsernameColumn, username).None? then (db, UserNotFoundReply)
    else
      var rooms := if roomId in db.rooms then db.rooms else db.rooms[roomId := Room(roomName, username, false)];
      (Db(db.users, rooms, SavedFiles(db.files, roomId, req)), SavedReply)
  }

  // -----------------------------------------------------------------------
  // Loading

  /** `loadWorkspace`: file name -> content for every file of the room. */
  function LoadWorkspace(files: FileTable, roomId: RoomId): (r: map<string, string>)
    ensures forall name :: name in r <==> (roomId, name) in files
    ensures forall name :: name in r ==> r[name] == files[(roomId, name)].content
  {
    map name | name in (set k | k in files && k.0 == roomId :: k.1) :: files[(roomId, name)].content
  }

  /** After a save, loading the room gives every saved name with its saved
      content, and the room's other files as they were. */
  lemma SaveThenLoad(db: Db, roomId: RoomId, username: string, roomName: string, req: map<string, string>)
    requires Accounts.Taken(db.users, Accounts.UsernameColumn, username)
    ensures var loaded := LoadWorkspace(SaveWorkspace(db, roomId, username, roomName, req).0.files, roomId);
      && (forall name :: name in req ==> name in loaded && loaded[name] == req[name])
      && (forall name :: name !in req && (roomId, name) in db.files ==>
            name in loaded && loaded[name] == db.files[(roomId, name)].content)
      && (forall name :: name in loaded ==> name in req || (roomId, name) in db.files)
  {
  }

  /** Saving keeps the language a file was first stored with, even when the
      new save gives it content of another language. */
  lemma ResaveKeepsLanguage(files: FileTable, roomId: RoomId, name: string, content: string)
    requires (roomId, name) in files
    ensures SavedFiles(files, roomId, map[name := content])[(roomId, name)] ==
      StoredFile(content, files[(roomId, name)].language)
  {
  }

  /** Saving into an existing room never changes its name or host, even
      when someone other than the host saves. */
  lemma SaveKeepsRoom(db: Db, roomId: RoomId, username: string, roomName: string, req: map<string, string>)
    requires roomId in db.rooms
    ensures SaveWorkspace(db, roomId, username, roomName, req).0.rooms == db.rooms
  {
  }

  // -----------------------------------------------------------------------
  // Deleting

  const NotFoundReply := "Error: Workspace not found."
  const UnauthorizedReply := "Error: Unauthorized. Only the host can delete this workspace."
  const DeletedReply := "Workspace deleted successfully."

  /** `deleteWorkspace`: only the room's host may delete it; then every file
      of the room goes, and then the room. */
  function DeleteWorkspace(db: Db, roomId: RoomId, username: string): (r: (Db, string))
    ensures roomId !in db.rooms ==> r == (db, NotFoundReply)
    ensures roomId in db.rooms && db.rooms[roomId].host != username ==> r == (db, UnauthorizedReply)
    ensures r.1 == DeletedReply <==> roomId in db.rooms && db.rooms[roomId].host == username
    ensures r.1 == DeletedReply ==>
      && r.0.users == db.users
      && r.0.rooms.Keys == db.rooms.Keys - {roomId}
      && (forall id :: id in r.0.rooms ==> r.0.rooms[id] == db.rooms[id])
      && (forall k :: k in r.0.files <==> k in db.files && k.0 != roomId)
      && (forall k :: k in r.0.files ==> r.0.files[k] == db.files[k])
  {
    if roomId !in db.rooms then (db, NotFoundReply)
    else if db.rooms[roomId].host != username then (db, UnauthorizedReply)
    else
      var files := map k | k in db.files && k.0 != roomId :: db.files[k];
      (Db(db.users, db.rooms - {roomId}, files), DeletedReply)
  }

  /** After the host deletes a room, loading it gives nothing. */
  lemma DeleteThenLoadEmpty(db: Db, roomId: RoomId, username: string)
    requires roomId in db.rooms && db.rooms[roomId].host == username
    ensures LoadWorkspace(DeleteWorkspace(db, roomId, username).0.files, roomId) == map[]
  {
    var loaded := LoadWorkspace(DeleteWorkspace(db, roomId, username).0.files, roomId);
    assert loaded.Keys == {};
  }

  /** Save undone by delete: a known user who saves into a new room with no
      files may delete it again, which restores the tables exactly. */
  lemma DeleteUndoesFirstSave(db: Db, roomId: RoomId, username: string, roomName: string,
                              req: map<string, string>)
    requires Accounts.Taken(db.users, Accounts.UsernameColumn, username)
    requires roomId !in db.rooms
    requires forall k :: k in db.files ==> k.0 != roomId
    ensures var saved := SaveWorkspace(db, roomId, username, roomName, req).0;
      DeleteWorkspace(saved, roomId, username) == (db, DeletedReply)
  {
    var saved := SaveWorkspace(db, roomId, username, roomName, req).0;
    var after := DeleteWorkspace(saved, roomId, username).0;
    assert after.rooms == db.rooms;
    assert after.files == db.files;
  }
}

=== FILE: wrappers.dfy ===
/** Option and Result, standing for Java's Optional / null and for the
    string-or-value returns of the services. */
module Wrappers {

  datatype Option<+T> = None | Some(value: T) {

    /** The value, or `default` when absent (Java's `getOrDefault`). */
    function GetOr(default: T): T {
      match this
      case Some(v) => v
      case None => default
    }
  }

  datatype Result<+R, +E> = Ok(value: R) | Err(error: E)
}
